=== FILE: README.md ===
# event_plugins message store, modelled in Dafny

This project models the `event_plugins` table and the `EventMessageCRUD`
operations that Airflow event sensors run against it. Each row records one
message a sensor waits for (`msg`), how often it is expected (`frequency`), the
last payload that matched it (`last_receive`, `last_receive_time`) and the end
of its current window (`timeout`). A sensor declares its wanted messages with
`initialize`. Incoming payloads are recorded with `update_on_receive`, and
`reset_timeout` re-opens windows that have closed. The sensor polls `status`,
`get_unreceived_msgs` and `have_successed_msgs`, and removes its rows with
`delete`.

The model is in five files:

- `wrappers.dfy` (module `Wrappers`): `Option`, `Result` (a value or the
  exception raised), and `Outcome` (committed, or rolled back with an error).
- `json.dfy` (module `JsonValue`): JSON values, and Python's `msg[key]` as
  `Get`. An object is a map, so two objects are equal exactly when their
  sorted-key serialisations are.
- `event_message.dfy` (module `EventMessage`): the `EventMessage` record and
  its two validators. It also holds the order in which building a record can
  fail, and the fresh "awaiting" row that `initialize`/`update_msgs` add.
- `event_table.dfy` (module `EventTable`): the table as a value `Store(rows,
  nextId)`, and every operation as a function from the old table to the new
  one or to the query's answer. The properties are lemmas over these functions.
- `event_message_crud.dfy` (module `Storage`):
  - `EventMessageTable` is a class holding the shared rows and the id
    sequence.
  - `EventMessageCrud` is a class whose methods change that table step by
    step, as the source does. Each method is proved to compute the matching
    `EventTable` function and to keep the table well formed: ids strictly
    increase along the rows and stay below the next id.
  - A scenario mirrors the insert and receive tests.

How the model represents the system:

- **Time.** Times are integers. The clock is an explicit `now` argument.
- **Timeout policy.** `get_timeout` is the function `timeoutPolicy(sourceType,
  msg, now)`, fixed when an `EventMessageCrud` is built. Its code is not part
  of this model.
- **Atomicity.** Every operation either completes or leaves the table as it
  was. A raised exception is a `Fail`/`Err` result.
- **Row order.** Rows keep table order, and new rows are appended.
- **JSON null payload.** A payload of JSON `null` stored in `last_receive`
  reads back as `None`, as the JSON column does.

Places where the code departs from what its docstrings and names suggest,
and the model follows the code:

- **`status` versus `get_unreceived_msgs`.** `status` reports `ALL_RECEIVED`
  only when every row has both received fields set. `get_unreceived_msgs`
  lists only rows where both are unset. A row with exactly one field set
  therefore gives `NOT_ALL_RECEIVED` with nothing unreceived, so "all received
  iff nothing unreceived" does not hold in general. `HalfReceivedRow` shows
  such a row. `PairedStatus` proves the equivalence for tables where every row
  has both fields set or both unset.
- **`initialize` and expired rows.** `initialize` runs `reset_timeout` only
  when the sensor already has rows. A second `initialize` with the same list,
  base and clock reading changes nothing, whatever the policy
  (`InitializeIdempotent`). With a later clock reading the policy may give a
  new row a different timeout, and the second call stores it. A
  row that `reset_timeout` re-opens is awaiting with the policy's timeout for
  its msg, and such a row is left as it is by any later reset at the same
  base. The condition that the policy gives no wanted msg a timeout before the
  base is needed only for `InitializeCurrent`: that no row of the sensor is
  still expired after `initialize`.
- **`have_successed_msgs` and the clock.** A row counts as succeeded when its
  `last_receive_time` lies before its `timeout`; the clock is not consulted.
  A row received inside its window is therefore still reported after the
  window has closed, until `reset_timeout` re-opens it
  (`CarryOverEndsAfterReset` covers the state after that reset).
- **A null payload.** `update_on_receive` with a JSON null payload sets
  `last_receive_time` but leaves `last_receive` empty. That gives the
  half-received row of the first point (`NullPayloadHalfReceives`).

## Model

Source cells are paths relative to the repository root.

| member | source | states |
|---|---|---|
| EventMessage.ValidateFrequency | plugins/event_plugins/common/storage/event_message.py:56-60 | a frequency is accepted exactly when it is the string `D` or `M`, is stored unchanged, and anything else raises the frequency error |
| EventMessage.ValidateSourceType | plugins/event_plugins/common/storage/event_message.py:62-66 | a source type is accepted exactly when it is `base` or `kafka`, is stored unchanged, and anything else raises the source-type error |
| EventMessage.Check | plugins/event_plugins/common/storage/event_message.py:38-54 | building a record fails first on a msg with no `frequency` key, then on an unknown source type, then on an invalid frequency; it succeeds exactly when all three hold, and the stored codes are the given strings |
| EventMessage.NewRow | plugins/event_plugins/common/storage/event_message.py:85-93 | a new record fails exactly when Check fails, with Check's error; otherwise it belongs to the sensor, holds the msg, has both received fields unset and the policy's timeout |
| EventTable.SensorRows | plugins/event_plugins/common/storage/event_message.py:97-101 | `get_sensor_messages` holds exactly the rows whose name is the sensor's |
| EventTable.Status | plugins/event_plugins/common/storage/event_message.py:164-175 | ALL_RECEIVED exactly when every row of the sensor has both last_receive and last_receive_time set (vacuously with no rows) |
| EventTable.Unreceived | plugins/event_plugins/common/storage/event_message.py:177-184 | a msg is listed exactly when some row of the sensor holding it has both received fields unset |
| EventTable.Succeeded | plugins/event_plugins/common/storage/event_message.py:198-200 | a msg is listed exactly when some row of the sensor holding it was received strictly before its timeout |
| EventTable.NotIn | plugins/event_plugins/common/storage/event_message.py:201-204 | keeps exactly the msgs not in the other list, each as many times as it occurred |
| EventTable.HaveSucceeded | plugins/event_plugins/common/storage/event_message.py:186-205 | a msg is returned exactly when it is not among the received msgs and some row of the sensor holding it was received before its timeout |
| EventTable.ResetExpired | plugins/event_plugins/common/storage/event_message.py:132-158 | exactly the sensor's rows with timeout strictly before the base time lose both received fields and get a fresh timeout; every other row, including one whose timeout equals the base, is unchanged |
| EventTable.ReceiveOn | plugins/event_plugins/common/storage/event_message.py:207-219 | every row of the sensor whose msg equals the matched msg records the payload and the time; its timeout and every other row are unchanged |
| EventTable.OtherRows | plugins/event_plugins/common/storage/event_message.py:222-226 | the rows `delete` leaves are exactly those whose name is another sensor's |
| EventTable.UpdateMsgs | plugins/event_plugins/common/storage/event_message.py:104-130 | a successful `update_msgs` hands out at most one new id per listed msg and adds at most one row per listed msg; its meaning is stated by the UpdateMsgs lemmas below |
| EventTable.Initialize | plugins/event_plugins/common/storage/event_message.py:78-95 | a successful `initialize` hands out at most one new id per listed msg and adds at most one row per listed msg; its meaning is stated by the Initialize lemmas below |
| Storage.EventMessageCrud.GetSensorMessages | plugins/event_plugins/common/storage/event_message.py:97-101 | holds exactly the table's rows whose name is the sensor's |
| EventTable.KeepWanted | plugins/event_plugins/common/storage/event_message.py:111-113 | the rows left after the delete are those of other sensors and those of the sensor whose msg is wanted |
| EventTable.BuildRows | plugins/event_plugins/common/storage/event_message.py:119-129 | the batch of new records succeeds exactly when every msg can be stored, and then holds one fresh awaiting row per msg, in order, with consecutive ids |
| EventTable.BuildRowsError | plugins/event_plugins/common/storage/event_message.py:119-129 | a failed batch raises the error of the first msg that cannot be stored |
| EventTable.BuildRowsFirstError | plugins/event_plugins/common/storage/event_message.py:84-94 | when all msgs before position i can be stored and msg i cannot, the batch raises msg i's error |
| EventTable.BuildRowsFails | plugins/event_plugins/common/storage/event_message.py:84-94 | the batch fails exactly when some msg cannot be stored, with the error of such a msg |
| EventTable.UpdateMsgsSyncs | plugins/event_plugins/common/storage/event_message.py:104-130 | after `update_msgs` the set of msgs stored for the sensor is exactly the set of wanted msgs |
| EventTable.UpdateMsgsRows | plugins/event_plugins/common/storage/event_message.py:111-130 | every row of the sensor with a wanted msg survives unchanged (received fields and timeout kept); every other row of the sensor after the update is new, awaiting, with the policy's timeout and an id not used before |
| EventTable.UpdateMsgsOthers | plugins/event_plugins/common/storage/event_message.py:111-113 | `update_msgs` leaves the rows of every other sensor as they were, in order |
| EventTable.UpdateMsgsFails | plugins/event_plugins/common/storage/event_message.py:115-130 | `update_msgs` fails exactly when a wanted msg the sensor does not hold yet cannot be stored, and raises such a msg's error; msgs already held are not validated again |
| EventTable.UpdateMsgsIdempotent | plugins/event_plugins/common/storage/event_message.py:104-130 | a second `update_msgs` with the same list changes nothing |
| EventTable.UpdateMsgsNoChange | plugins/event_plugins/common/storage/event_message.py:104-130 | when the sensor already holds exactly the wanted msgs, `update_msgs` changes nothing |
| EventTable.UpdateMsgsWellFormed | plugins/event_plugins/common/storage/event_message.py:25 | `update_msgs` keeps the ids strictly increasing and below the next id |
| EventTable.ResetExpiredFrame | plugins/event_plugins/common/storage/event_message.py:148-158 | `reset_timeout` keeps the sensor's set of msgs, the other sensors' rows and well-formed ids |
| EventTable.ResetExpiredSettles | plugins/event_plugins/common/storage/event_message.py:147-158 | when the policy gives no msg of the sensor a timeout before the base, no row of the sensor is left expired |
| EventTable.ResetRowFixed | plugins/event_plugins/common/storage/event_message.py:154-157 | `reset_timeout` leaves a row as it is exactly when it is another sensor's, not yet due, or already awaiting with the policy's timeout for its msg |
| EventTable.ResetExpiredFixed | plugins/event_plugins/common/storage/event_message.py:148-158 | a table whose rows all are such rows is not touched by `reset_timeout` |
| EventTable.ResetExpiredAllFixed | plugins/event_plugins/common/storage/event_message.py:148-158 | after `reset_timeout` every row is such a row, whatever the policy |
| EventTable.ResetExpiredTwice | plugins/event_plugins/common/storage/event_message.py:133-158 | whatever the policy, a second `reset_timeout` at the same base changes nothing |
| EventTable.ResetExpiredNullFree | plugins/event_plugins/common/storage/event_message.py:154-157 | `reset_timeout` never leaves a JSON null payload in a row |
| EventTable.ResetExpiredNothingDue | plugins/event_plugins/common/storage/event_message.py:148-153 | a sensor none of whose rows is expired at the base is not touched |
| EventTable.CarryOverEndsAfterReset | plugins/event_plugins/common/storage/event_message.py:187-205 | after rows of a msg have expired and been reset, the msg is no longer reported as succeeded earlier |
| EventTable.ReceiveOnFrame | plugins/event_plugins/common/storage/event_message.py:208-219 | recording a payload keeps the sensor's set of msgs, the other sensors' rows and well-formed ids |
| EventTable.ReceiveOnNoMatch | plugins/event_plugins/common/storage/event_message.py:210-216 | with no row of the sensor holding the matched msg, recording a payload changes nothing |
| EventTable.ReceiveOnIdempotent | plugins/event_plugins/common/storage/event_message.py:208-219 | recording the same payload twice at the same time equals recording it once |
| EventTable.ReceiveOnNullFree | plugins/event_plugins/common/storage/event_message.py:216-218 | `update_on_receive` never leaves a JSON null payload in a row: a null payload reads back as empty |
| EventTable.NullPayloadHalfReceives | plugins/event_plugins/common/storage/event_message.py:216-218 | with a JSON null payload on a row of the sensor, `status` is NOT_ALL_RECEIVED and yet the msg is not unreceived |
| EventTable.ReceiveOnMarksReceived | plugins/event_plugins/common/storage/event_message.py:208-219 | after a payload for a msg is recorded the msg is no longer unreceived, and with a non-null payload its rows count as received |
| EventTable.AllReceivedNothingUnreceived | plugins/event_plugins/common/storage/event_message.py:165-184 | when `status` is ALL_RECEIVED nothing is unreceived |
| EventTable.PairedStatus | plugins/event_plugins/common/storage/event_message.py:165-184 | when every row of the sensor has both received fields set or both unset, ALL_RECEIVED holds exactly when nothing is unreceived |
| EventTable.HalfReceivedRow | test_plugins/test_event_plugins/test_common/test_event_message.py:230-241 | a row with only last_receive_time set gives NOT_ALL_RECEIVED yet is not unreceived |
| EventTable.DeleteKeepsOthers | plugins/event_plugins/common/storage/event_message.py:222-226 | `delete` leaves every other sensor's rows as they were |
| EventTable.DeleteRemovesSensor | plugins/event_plugins/common/storage/event_message.py:222-226 | after `delete` the sensor has no rows, a second delete changes nothing, and ids stay well formed |
| EventTable.InitializeFirstInsert | plugins/event_plugins/common/storage/event_message.py:83-95 | for a sensor with no rows, `initialize` succeeds exactly when every msg can be stored, and then appends one awaiting row per msg in order, with the policy's timeout and fresh ids, after the unchanged existing rows |
| EventTable.InsertSyncs | plugins/event_plugins/common/storage/event_message.py:83-95 | the first insert leaves the sensor holding exactly the wanted msgs, the other sensors unchanged and the ids well formed |
| EventTable.ResyncSyncs | plugins/event_plugins/common/storage/event_message.py:79-82 | `update_msgs` followed by `reset_timeout` leaves the sensor holding exactly the wanted msgs, the other sensors unchanged and the ids well formed |
| EventTable.InitializeSyncs | plugins/event_plugins/common/storage/event_message.py:78-95 | after `initialize` the sensor holds exactly the wanted msgs, other sensors are unchanged, and ids stay well formed |
| EventTable.InitializeCurrent | plugins/event_plugins/common/storage/event_message.py:78-95 | when the policy gives no wanted msg a timeout before the base, no row of the sensor is expired after `initialize` |
| EventTable.InitializeFixed | plugins/event_plugins/common/storage/event_message.py:78-95 | after `initialize`, every row is one that `reset_timeout` at the same base leaves as it is, whatever the policy |
| EventTable.InitializeIdempotent | plugins/event_plugins/common/storage/event_message.py:78-95 | whatever the policy, a second `initialize` with the same list, base and clock reading (one deadline function) changes nothing |
| EventTable.InitializeSettled | plugins/event_plugins/common/storage/event_message.py:78-95 | a sensor already holding exactly the wanted msgs, whose rows a reset at the base leaves as they are, is left unchanged by `initialize` |
| Storage.EventMessageTable.constructor | plugins/event_plugins/common/storage/event_message.py:21-32 | the table starts empty, with the id sequence at 1; the table invariant (well-formed ids, no JSON null payload) holds |
| Storage.EventMessageCrud.constructor | plugins/event_plugins/common/storage/event_message.py:71-73 | the operations are bound to one source type, one sensor name, the shared table and the timeout policy |
| Storage.EventMessageCrud.BuildRecords | plugins/event_plugins/common/storage/event_message.py:119-129 | the loop that builds records returns the batch BuildRows describes, or the first msg's error, writing nothing |
| Storage.EventMessageCrud.Append | plugins/event_plugins/common/storage/event_message.py:94-95 | adding a batch with the next ids appends it to the table, advances the id sequence by its length and keeps ids well formed |
| Storage.EventMessageCrud.Initialize | plugins/event_plugins/common/storage/event_message.py:78-95 | the method commits exactly the table `EventTable.Initialize` describes for the base `dt or now`, or fails with its error leaving the table unchanged |
| Storage.EventMessageCrud.UpdateMsgs | plugins/event_plugins/common/storage/event_message.py:104-130 | the method commits exactly the table `EventTable.UpdateMsgs` describes, or fails with its error leaving the table unchanged |
| Storage.EventMessageCrud.ResetTimeout | plugins/event_plugins/common/storage/event_message.py:133-158 | the loop over the sensor's rows leaves exactly the table ResetExpired describes for the base `base_time or now` |
| Storage.EventMessageCrud.UpdateOnReceive | plugins/event_plugins/common/storage/event_message.py:208-219 | the loop over matching rows leaves exactly the table ReceiveOn describes |
| Storage.EventMessageCrud.Delete | plugins/event_plugins/common/storage/event_message.py:222-226 | the table keeps exactly the other sensors' rows, in order |
| Storage.EventMessageCrud.Status | plugins/event_plugins/common/storage/event_message.py:165-175 | the loop with early return answers what Status describes |
| Storage.EventMessageCrud.GetUnreceivedMsgs | plugins/event_plugins/common/storage/event_message.py:178-184 | the comprehension returns what Unreceived describes, in row order |
| Storage.EventMessageCrud.HaveSuccessedMsgs | plugins/event_plugins/common/storage/event_message.py:187-205 | the two loops return what HaveSucceeded describes, in row order |
| Storage.MissingMsgs | plugins/event_plugins/common/storage/event_message.py:115-118 | the loop returns NotIn: the msgs not among the others, in order, with their multiplicity |
| Storage.FirstInitialize | test_plugins/test_event_plugins/test_common/test_event_message.py:99-108 | a daily and a monthly msg on an empty table become two awaiting rows with ids 1 and 2, their frequencies and the policy's timeouts |
| Storage.FirstRowsQueries | test_plugins/test_event_plugins/test_common/test_event_message.py:327-350 | those two rows are NOT_ALL_RECEIVED, and once the first msg arrives only the second is unreceived |
| Storage.InitializeThenReceive | test_plugins/test_event_plugins/test_common/test_event_message.py:99-108 | on the classes: initialize stores two rows, status is NOT_ALL_RECEIVED, and after the first msg is received only the second is unreceived |

## Left out

- Sessions, `provide_session`, `commit`/`rollback` and `synchronize_session`
  are not modelled. The table is an in-memory sequence, and each operation
  either completes or leaves it unchanged. `delete` has no explicit commit; the
  model treats it as committed.
- `tabulate_data` is left out: it is text presentation built on an outside
  library.
- The body of `get_timeout` (the per-source plugin factory and its calendar
  rules) is not modelled. It is the parameter `timeoutPolicy`, so nothing is
  proved about end-of-day or end-of-month deadlines. That includes the claim
  that a reset row's new deadline lies after the reset time.
- The clock: `TimeUtils().get_now()` is the explicit argument `now`.
  `update_on_receive` reads the clock once per matching row; the model uses one
  `now` for all of them.
- `get_timeout` reads the clock on every call, so `initialize`, `update_msgs`
  and `reset_timeout` read it once per row they build or reset. The model gives
  all rows of one operation the deadlines of one reading, `Deadlines(now)`.
  Rows built across midnight or a month end can therefore get deadlines from
  two readings in the code, which the model does not produce.
- JSON text: serialisation, floats and key ordering. Equality of JSON objects
  is map equality.
- Calls with a msg list that is not a list (`initialize("non-json string")`,
  `initialize(None)`) cannot be expressed with these types. A msg that is not
  an object, or has no `frequency` key, is modelled; it raises the input
  error.
- SQL queries have no `ORDER BY`. The model fixes table order, with new rows
  last, so "in row order" means this order.
- `get_timeout` runs while a row is built: the `timeout` keyword argument is
  evaluated after `msg['frequency']` and before `__init__`'s validators
  (lines 85-93 and 120-128). The model takes the policy to answer for every
  msg and source type. So an unknown source type raises the source-type
  error from the validator. In the source, the plugin factory meets that
  source type first, and what it then does is not part of this model.
- Exception message texts are not modelled, only which exception is raised.
- Concurrent use of one sensor's rows is not modelled.
- The longer daily/monthly usage scenario is not modelled as one run: a
  second arrival reaching ALL_RECEIVED, then a reset two days later. The
  lemmas on ReceiveOn, Status and ResetExpired cover each step separately.

=== FILE: event_message.dfy ===
/**
 * One row of the `event_plugins` table: the `EventMessage` record, its two
 * validated enumerations, and the construction of a fresh "awaiting" row.
 */
module EventMessage {
  import opened Wrappers
  import opened JsonValue

  /** A point in time; only the order of time points matters to the table. */
  type Time = int

  /** How often a wanted message is expected: `D` (daily) or `M` (monthly). */
  datatype Frequency = Daily | Monthly

  /** Where messages are consumed from: `base` (for testing) or `kafka`. */
  datatype SourceType = Base | Kafka

  /** The exceptions building a row can raise. */
  datatype Error =
    | InputError          // `msg['frequency']` raises: the msg is no object, or has no such key
    | InvalidSourceType   // validate_source_type raises ValueError
    | InvalidFrequency    // validate_frequency raises ValueError

  /**
   * A row of the table. `name` is the sensor that owns it, `msg` the wanted
   * message, `lastReceive`/`lastReceiveTime` the last matching payload and
   * its arrival time, `timeout` the end of the current expectation window.
   */
  datatype Row = Row(
    id: nat,
    name: string,
    msg: Json,
    sourceType: SourceType,
    frequency: Frequency,
    lastReceive: Option<Json>,
    lastReceiveTime: Option<Time>,
    timeout: Time)

  /** Both received fields unset: the row still waits for its message. */
  predicate Awaiting(row: Row) {
    row.lastReceive.None? && row.lastReceiveTime.None?
  }

  /** Both received fields set: the row counts as received. */
  predicate Received(row: Row) {
    row.lastReceive.Some? && row.lastReceiveTime.Some?
  }

  /**
   * `row` is what the table gets for a newly wanted `msg`: awaiting, owned by
   * `name`, with the given id and timeout, and the source type and frequency
   * stored exactly as given.
   */
  predicate IsNewRow(row: Row, id: nat, name: string, msg: Json, sourceType: string, timeout: Time) {
    && row.id == id && row.name == name && row.msg == msg
    && SourceTypeCode(row.sourceType) == sourceType
    && Get(msg, "frequency") == Some(JStr(FrequencyCode(row.frequency)))
    && Awaiting(row)
    && row.timeout == timeout
  }

  /** A new row is determined by its id, sensor, msg, source type and deadline. */
  lemma IsNewRowUnique(a: Row, b: Row, id: nat, name: string, msg: Json, sourceType: string, timeout: Time)
    requires IsNewRow(a, id, name, msg, sourceType, timeout) && IsNewRow(b, id, name, msg, sourceType, timeout)
    ensures a == b
  {
    assert a.sourceType == b.sourceType by {
      match a.sourceType
      case Base => assert SourceTypeCode(b.sourceType) == "base";
      case Kafka => assert SourceTypeCode(b.sourceType) == "kafka";
    }
    assert a.frequency == b.frequency by {
      match a.frequency
      case Daily => assert FrequencyCode(b.frequency) == "D";
      case Monthly => assert FrequencyCode(b.frequency) == "M";
    }
  }

  const AvailableFrequency: seq<string> := ["D", "M"]
  const AvailableSourceType: seq<string> := ["base", "kafka"]

  /** The string stored in the `frequency` column. */
  function FrequencyCode(f: Frequency): string {
    match f
    case Daily => "D"
    case Monthly => "M"
  }

  /** The string stored in the `source_type` column. */
  function SourceTypeCode(t: SourceType): string {
    match t
    case Base => "base"
    case Kafka => "kafka"
  }

  /** `validate_frequency`: accepts exactly the strings of AvailableFrequency and keeps them unchanged. */
  function ValidateFrequency(v: Json): (r: Result<Frequency, Error>)
    ensures r.Ok? <==> v.JStr? && v.s in AvailableFrequency
    ensures r.Ok? ==> v == JStr(FrequencyCode(r.value))
    ensures r.Err? ==> r.error == InvalidFrequency
  {
    if v == JStr("D") then Ok(Daily)
    else if v == JStr("M") then Ok(Monthly)
    else Err(InvalidFrequency)
  }

  /** `validate_source_type`: accepts exactly the strings of AvailableSourceType and keeps them unchanged. */
  function ValidateSourceType(s: string): (r: Result<SourceType, Error>)
    ensures r.Ok? <==> s in AvailableSourceType
    ensures r.Ok? ==> s == SourceTypeCode(r.value)
    ensures r.Err? ==> r.error == InvalidSourceType
  {
    if s == "base" then Ok(Base)
    else if s == "kafka" then Ok(Kafka)
    else Err(InvalidSourceType)
  }

  /**
   * What can fail in the record itself while a row is built from a wanted
   * msg, in the order the source meets it: reading `msg['frequency']` for the
   * keyword argument, then the two validators as `__init__` assigns
   * `source_type` and then `frequency`. The `timeout` keyword argument calls
   * the timeout policy between the first step and the validators; the policy
   * is taken to answer for every msg, so it adds no failure here.
   */
  function Check(msg: Json, sourceType: string): (r: Result<(SourceType, Frequency), Error>)
    ensures r.Ok? <==> Get(msg, "frequency").Some? && sourceType in AvailableSourceType
                       && ValidateFrequency(Get(msg, "frequency").value).Ok?
    ensures r.Ok? ==> SourceTypeCode(r.value.0) == sourceType
                      && JStr(FrequencyCode(r.value.1)) == Get(msg, "frequency").value
    ensures r == Err(InputError) <==> Get(msg, "frequency").None?
    ensures r == Err(InvalidSourceType) <==> Get(msg, "frequency").Some? && sourceType !in AvailableSourceType
  {
    match Get(msg, "frequency")
    case None => Err(InputError)
    case Some(f) =>
      match ValidateSourceType(sourceType)
      case Err(e) => Err(e)
      case Ok(st) =>
        match ValidateFrequency(f)
        case Err(e) => Err(e)
        case Ok(freq) => Ok((st, freq))
  }

  /**
   * `EventMessage(name, msg, source_type, msg['frequency'], None, None, timeout)`:
   * the row the table gets for a newly wanted msg, with id `id`.
   */
  function NewRow(id: nat, name: string, msg: Json, sourceType: string, timeout: Time): (r: Result<Row, Error>)
    ensures r.Ok? <==> Check(msg, sourceType).Ok?
    ensures r.Err? ==> r.error == Check(msg, sourceType).error
    ensures r.Ok? ==> IsNewRow(r.value, id, name, msg, sourceType, timeout)
  {
    match Check(msg, sourceType)
    case Err(e) => Err(e)
    case Ok((st, freq)) => Ok(Row(id, name, msg, st, freq, None, None, timeout))
  }
}

=== FILE: event_message_crud.dfy ===
/**
 * `EventMessageCRUD`: the operations one sensor runs against the shared
 * `event_plugins` table, written as the source runs them, step by step on a
 * mutable table, and each proved to compute the matching function of
 * EventTable.
 */
module Storage {
  import opened Wrappers
  import opened JsonValue
  import opened EventMessage
  import opened EventTable

  /** The shared table: the rows of every sensor, and the id sequence behind the primary key. */
  class EventMessageTable {
    var rows: seq<Row>
    var nextId: nat

    function State(): Store
      reads this
    {
      Store(rows, nextId)
    }

    /** Well-formed ids, and no payload stored as JSON null. */
    ghost predicate Valid()
      reads this
    {
      WellFormed(State()) && NullFree(rows)
    }

    /** An empty table whose id sequence starts at 1. */
    constructor ()
      ensures Valid() && rows == [] && nextId == 1
    {
      rows := [];
      nextId := 1;
    }
  }

  /** The operations of one sensor, `sensorName`, consuming from `sourceType`. */
  class EventMessageCrud {
    const sourceType: string
    const sensorName: string
    const table: EventMessageTable
    /**
     * The per-source timeout handler behind `get_timeout`: the deadline it
     * gives a wanted msg when its own clock reads the given time.
     */
    const timeoutPolicy: (string, Json, Time) -> Time

    constructor (sourceType: string, sensorName: string, table: EventMessageTable,
                 timeoutPolicy: (string, Json, Time) -> Time)
      ensures this.sourceType == sourceType && this.sensorName == sensorName
      ensures this.table == table && this.timeoutPolicy == timeoutPolicy
    {
      this.sourceType := sourceType;
      this.sensorName := sensorName;
      this.table := table;
      this.timeoutPolicy := timeoutPolicy;
    }

    /** `get_timeout`, with the handler's clock reading `now`. */
    function Deadlines(now: Time): Json -> Time {
      m => timeoutPolicy(sourceType, m, now)
    }

    /** `get_sensor_messages`. */
    function GetSensorMessages(): (records: seq<Row>)
      reads table
      ensures forall row :: row in records <==> row in table.rows && row.name == sensorName
    {
      SensorRows(table.rows, sensorName)
    }

    /**
     * The `EventMessage(...)` / `session.add` loop: builds one row per msg,
     * with the ids the sequence hands out next, and stops at the first msg
     * that cannot be stored. Nothing is written to the table.
     */
    method BuildRecords(msgs: seq<Json>, now: Time) returns (r: Result<seq<Row>, Error>)
      ensures r == BuildRows(msgs, sensorName, sourceType, table.nextId, Deadlines(now))
    {
      var pending: seq<Row> := [];
      for i := 0 to |msgs|
        invariant |pending| == i
        invariant forall j :: 0 <= j < i ==> Check(msgs[j], sourceType).Ok?
        invariant forall j :: 0 <= j < i ==>
          IsNewRow(pending[j], table.nextId + j, sensorName, msgs[j], sourceType, Deadlines(now)(msgs[j]))
      {
        var record := NewRow(table.nextId + i, sensorName, msgs[i], sourceType, Deadlines(now)(msgs[i]));
        if record.Err? {
          BuildRowsFirstError(msgs, i, sensorName, sourceType, table.nextId, Deadlines(now));
          return Err(record.error);
        }
        pending := pending + [record.value];
      }
      BuildRowsExact(msgs, pending, sensorName, sourceType, table.nextId, Deadlines(now));
      r := Ok(pending);
    }

    /** `session.add` of freshly built rows and the commit: the rows join the table after every row already there. */
    method Append(added: seq<Row>)
      requires table.Valid()
      requires forall j :: 0 <= j < |added| ==> added[j].id == table.nextId + j && Awaiting(added[j])
      modifies table
      ensures table.Valid()
      ensures table.rows == old(table.rows) + added && table.nextId == old(table.nextId) + |added|
    {
      AppendFreshRows(table.rows, added, table.nextId);
      assert forall row :: row in table.rows + added ==> row in table.rows || row in added;
      table.rows, table.nextId := table.rows + added, table.nextId + |added|;
    }

    /**
     * `initialize(msg_list, dt)` with the clock at `now`: inserts the listed
     * msgs for a sensor without rows, or else runs `update_msgs` and then
     * `reset_timeout(dt or now)`. An exception leaves the table as it was.
     */
    method Initialize(msgList: seq<Json>, dt: Option<Time>, now: Time) returns (r: Outcome<Error>)
      requires table.Valid()
      modifies table
      ensures table.Valid()
      ensures var i := EventTable.Initialize(old(table.State()), sensorName, sourceType, msgList, dt.GetOr(now), Deadlines(now));
        && (i.Ok? ==> r == Pass && table.rows == i.value.rows && table.nextId == i.value.nextId)
        && (i.Err? ==> r == Fail(i.error) && table.rows == old(table.rows) && table.nextId == old(table.nextId))
    {
      ghost var s0 := table.State();
      InitializeSteps(s0, sensorName, sourceType, msgList, dt.GetOr(now), Deadlines(now));
      var records := GetSensorMessages();
      assert records == SensorRows(s0.rows, sensorName);
      if |records| > 0 {
        var base := dt.GetOr(now);
        ghost var u := EventTable.UpdateMsgs(s0, sensorName, sourceType, msgList, Deadlines(now));
        r := UpdateMsgs(msgList, now);
        assert r.Pass? <==> u.Ok?;
        if r.Pass? {
          ResetTimeout(Some(base), now);
          assert table.rows == ResetExpired(u.value.rows, sensorName, base, Deadlines(now));
        }
      } else {
        var built := BuildRecords(msgList, now);
        BuildRowsFresh(msgList, sensorName, sourceType, table.nextId, Deadlines(now));
        match built
        case Err(e) =>
          r := Fail(e);
        case Ok(added) =>
          Append(added);
          r := Pass;
      }
    }

    /**
     * `update_msgs(msg_list)` with the clock at `now`: deletes the sensor's
     * rows whose msg is not listed, then adds a row for every listed msg the
     * remaining rows lack. An exception rolls the delete back.
     */
    method UpdateMsgs(msgList: seq<Json>, now: Time) returns (r: Outcome<Error>)
      requires table.Valid()
      modifies table
      ensures table.Valid()
      ensures var u := EventTable.UpdateMsgs(old(table.State()), sensorName, sourceType, msgList, Deadlines(now));
        && (u.Ok? ==> r == Pass && table.rows == u.value.rows && table.nextId == u.value.nextId)
        && (u.Err? ==> r == Fail(u.error) && table.rows == old(table.rows) && table.nextId == old(table.nextId))
    {
      ghost var s0 := table.State();
      var before := table.rows;
      KeepWantedWellFormed(s0, sensorName, msgList);
      table.rows := KeepWanted(table.rows, sensorName, msgList);
      var newMsgs := MissingMsgs(msgList, MsgsOf(SensorRows(table.rows, sensorName)));
      var built := BuildRecords(newMsgs, now);
      UpdateMsgsSteps(s0, sensorName, sourceType, msgList, Deadlines(now), table.rows, newMsgs, built);
      BuildRowsFresh(newMsgs, sensorName, sourceType, s0.nextId, Deadlines(now));
      match built
      case Err(e) =>
        table.rows := before;
        r := Fail(e);
      case Ok(added) =>
        Append(added);
        r := Pass;
    }

    /**
     * `reset_timeout(base_time)` with the clock at `now`: every row of the
     * sensor whose timeout is strictly before `base_time` (default: `now`)
     * forgets what it received and gets a fresh timeout.
     */
    method ResetTimeout(baseTime: Option<Time>, now: Time)
      requires table.Valid()
      modifies table
      ensures table.Valid()
      ensures table.rows == ResetExpired(old(table.rows), sensorName, baseTime.GetOr(now), Deadlines(now))
      ensures table.nextId == old(table.nextId)
    {
      var base := baseTime.GetOr(now);
      var deadline := Deadlines(now);
      var stored := table.rows;
      var rows := stored;
      for i := 0 to |rows|
        invariant |rows| == |stored|
        invariant forall k :: 0 <= k < i ==> rows[k] == ResetRow(stored[k], sensorName, base, deadline)
        invariant forall k :: i <= k < |rows| ==> rows[k] == stored[k]
      {
        var record := rows[i];
        if record.name == sensorName && record.timeout < base {
          record := record.(lastReceiveTime := None, lastReceive := None, timeout := deadline(record.msg));
          rows := rows[i := record];
        }
        assert rows[i] == ResetRow(stored[i], sensorName, base, deadline);
      }
      ResetExpiredPointwise(stored, rows, sensorName, base, deadline);
      ResetExpiredKeeps(table.State(), sensorName, base, deadline);
      table.rows := rows;
    }

    /**
     * `update_on_receive(match_wanted, receive_msg)` with the clock at `now`:
     * every row of the sensor waiting for `matchWanted` records the payload
     * and `now`.
     */
    method UpdateOnReceive(matchWanted: Json, receiveMsg: Json, now: Time)
      requires table.Valid()
      modifies table
      ensures table.Valid()
      ensures table.rows == ReceiveOn(old(table.rows), sensorName, matchWanted, receiveMsg, now)
      ensures table.nextId == old(table.nextId)
    {
      var stored := table.rows;
      var rows := stored;
      for i := 0 to |rows|
        invariant |rows| == |stored|
        invariant forall k :: 0 <= k < i ==> rows[k] == ReceiveRow(stored[k], sensorName, matchWanted, receiveMsg, now)
        invariant forall k :: i <= k < |rows| ==> rows[k] == stored[k]
      {
        var record := rows[i];
        if record.name == sensorName && record.msg == matchWanted {
          record := record.(lastReceiveTime := Some(now), lastReceive := StoredPayload(receiveMsg));
          rows := rows[i := record];
        }
        assert rows[i] == ReceiveRow(stored[i], sensorName, matchWanted, receiveMsg, now);
      }
      ReceiveOnPointwise(stored, rows, sensorName, matchWanted, receiveMsg, now);
      ReceiveOnKeeps(table.State(), sensorName, matchWanted, receiveMsg, now);
      table.rows := rows;
    }

    /** `delete`: removes every row of the sensor. */
    method Delete()
      requires table.Valid()
      modifies table
      ensures table.Valid()
      ensures table.rows == OtherRows(old(table.rows), sensorName)
      ensures table.nextId == old(table.nextId)
    {
      DeleteRemovesSensor(table.State(), sensorName);
      table.rows := OtherRows(table.rows, sensorName);
    }

    /** `status`: scans the sensor's rows and stops at the first one not received. */
    method Status() returns (s: DBStatus)
      ensures s == EventTable.Status(table.rows, sensorName)
    {
      for i := 0 to |table.rows|
        invariant forall k :: 0 <= k < i && table.rows[k].name == sensorName ==> Received(table.rows[k])
      {
        var r := table.rows[i];
        if r.name == sensorName && (r.lastReceive.None? || r.lastReceiveTime.None?) {
          return NotAllReceived;
        }
      }
      return AllReceived;
    }

    /** `get_unreceived_msgs`: the msgs of the sensor's rows with both received fields unset. */
    method GetUnreceivedMsgs() returns (msgs: seq<Json>)
      ensures msgs == Unreceived(table.rows, sensorName)
    {
      msgs := [];
      for i := 0 to |table.rows|
        invariant msgs == Unreceived(table.rows[..i], sensorName)
      {
        assert Init(table.rows[..i + 1]) == table.rows[..i];
        var r := table.rows[i];
        if r.name == sensorName && r.lastReceive.None? && r.lastReceiveTime.None? {
          msgs := msgs + [r.msg];
        }
      }
      assert table.rows[..|table.rows|] == table.rows;
    }

    /**
     * `have_successed_msgs(received_msgs)`: the msgs of the sensor's rows that
     * received a payload before their timeout, less those in `receivedMsgs`.
     */
    method HaveSuccessedMsgs(receivedMsgs: seq<Json>) returns (msgs: seq<Json>)
      ensures msgs == HaveSucceeded(table.rows, sensorName, receivedMsgs)
    {
      var successed: seq<Json> := [];
      for i := 0 to |table.rows|
        invariant successed == Succeeded(table.rows[..i], sensorName)
      {
        assert Init(table.rows[..i + 1]) == table.rows[..i];
        var r := table.rows[i];
        if r.name == sensorName && r.lastReceiveTime.Some? && r.lastReceiveTime.value < r.timeout {
          successed := successed + [r.msg];
        }
      }
      assert table.rows[..|table.rows|] == table.rows;
      msgs := MissingMsgs(successed, receivedMsgs);
    }
  }

  /** The loop that computes NotIn: the msgs of `msgs` not in `others`, in order. */
  method MissingMsgs(msgs: seq<Json>, others: seq<Json>) returns (r: seq<Json>)
    ensures r == NotIn(msgs, others)
  {
    r := [];
    for i := 0 to |msgs|
      invariant r == NotIn(msgs[..i], others)
    {
      assert Init(msgs[..i + 1]) == msgs[..i];
      if msgs[i] !in others {
        r := r + [msgs[i]];
      }
    }
    assert msgs[..|msgs|] == msgs;
  }

  /** A wanted msg of the shape the sensors are configured with, finishing `table` at `frequency`. */
  function WantedTable(frequency: string, table: string): Json {
    JObj(map["frequency" := JStr(frequency), "topic" := JStr("etl-finish"), "table" := JStr(table)])
  }

  /** The two rows the first `initialize` of sensor `test` stores for a daily and a monthly msg. */
  function FirstRows(m0: Json, m1: Json, deadline: Json -> Time): seq<Row> {
    [Row(1, "test", m0, Kafka, Daily, None, None, deadline(m0)),
     Row(2, "test", m1, Kafka, Monthly, None, None, deadline(m1))]
  }

  /** On an empty table, `initialize` of sensor `test` with a daily and a monthly msg stores exactly FirstRows. */
  lemma FirstInitialize(m0: Json, m1: Json, base: Time, deadline: Json -> Time)
    requires Get(m0, "frequency") == Some(JStr("D")) && Get(m1, "frequency") == Some(JStr("M"))
    ensures Initialize(Store([], 1), "test", "kafka", [m0, m1], base, deadline) == Ok(Store(FirstRows(m0, m1, deadline), 3))
  {
    var msgs := [m0, m1];
    assert msgs[0] == m0 && msgs[1] == m1;
    assert Check(m0, "kafka") == Ok((Kafka, Daily)) && Check(m1, "kafka") == Ok((Kafka, Monthly));
    var b := BuildRows(msgs, "test", "kafka", 1, deadline);
    assert b.Ok?;
    var rows := FirstRows(m0, m1, deadline);
    forall i | 0 <= i < 2 ensures b.value[i] == rows[i] {
      assert IsNewRow(b.value[i], 1 + i, "test", msgs[i], "kafka", deadline(msgs[i]));
      assert b.value[i].sourceType == Kafka;
      assert b.value[i].frequency == rows[i].frequency;
    }
    assert b.value == rows && [] + b.value == rows;
    assert SensorRows([], "test") == [];
    assert Initialize(Store([], 1), "test", "kafka", msgs, base, deadline) == Ok(Store([] + b.value, 1 + |b.value|));
  }

  /**
   * After FirstRows, the sensor has two rows, is not all received, and once
   * `m0` arrives only `m1` is still unreceived.
   */
  lemma FirstRowsQueries(m0: Json, m1: Json, deadline: Json -> Time, now: Time)
    requires m0 != m1
    ensures var rows := FirstRows(m0, m1, deadline);
      && SensorRows(rows, "test") == rows
      && Status(rows, "test") == NotAllReceived
      && var unreceived := Unreceived(ReceiveOn(rows, "test", m0, m0, now), "test");
         m0 !in unreceived && m1 in unreceived
  {
    var rows := FirstRows(m0, m1, deadline);
    SensorRowsOfSensor(rows, "test");
    var rows' := ReceiveOn(rows, "test", m0, m0, now);
    assert rows'[1] == rows[1] && Awaiting(rows'[1]);
  }

  /**
   * A sensor `test` consuming from `kafka` initializes an empty table with a
   * daily and a monthly wanted msg, then the first one arrives: both rows are
   * stored awaiting, the sensor is not all received, and afterwards only the
   * second msg is still unreceived.
   */
  method InitializeThenReceive(now: Time) returns (outcome: Outcome<Error>, stored: nat, before: DBStatus,
                                                   unreceived: seq<Json>)
    ensures outcome == Pass && stored == 2 && before == NotAllReceived
    ensures WantedTable("D", "tbl0") !in unreceived && WantedTable("M", "tbl1") in unreceived
  {
    var m0, m1 := WantedTable("D", "tbl0"), WantedTable("M", "tbl1");
    assert m0.fields["table"] != m1.fields["table"];
    var table := new EventMessageTable();
    var crud := new EventMessageCrud("kafka", "test", table, (st: string, m: Json, t: Time) => t + 86399);
    FirstInitialize(m0, m1, now, crud.Deadlines(now));
    FirstRowsQueries(m0, m1, crud.Deadlines(now), now + 1);
    outcome := crud.Initialize([m0, m1], None, now);
    stored := |crud.GetSensorMessages()|;
    before := crud.Status();
    crud.UpdateOnReceive(m0, m0, now + 1);
    unreceived := crud.GetUnreceivedMsgs();
  }
}

=== FILE: event_table.dfy ===
/**
 * The `event_plugins` table as a value, and every operation of
 * `EventMessageCRUD` as a function from the old table to the new one (or to
 * the answer of a query). Rows are kept in table order; every operation is
 * scoped by a sensor name.
 */
module EventTable {
  import opened Wrappers
  import opened JsonValue
  import opened EventMessage

  /** What `status` reports. */
  datatype DBStatus = AllReceived | NotAllReceived

  /** The rows in table order, and the id the autoincrement sequence hands out next. */
  datatype Store = Store(rows: seq<Row>, nextId: nat)

  /** Ids strictly increase along the rows. */
  ghost predicate IdsIncreasing(rows: seq<Row>) {
    forall i, j :: 0 <= i < j < |rows| ==> rows[i].id < rows[j].id
  }

  /** Primary keys: ids strictly increase along the table and stay below nextId. */
  ghost predicate WellFormed(s: Store) {
    && (forall i :: 0 <= i < |s.rows| ==> s.rows[i].id < s.nextId)
    && IdsIncreasing(s.rows)
  }

  /** No row holds a JSON null payload: the JSON column reads a stored null back as None. */
  ghost predicate NullFree(rows: seq<Row>) {
    forall row :: row in rows ==> row.lastReceive != Some(JNull)
  }

  /** The row received a payload before its window closed. */
  predicate StillValid(row: Row) {
    row.lastReceiveTime.Some? && row.lastReceiveTime.value < row.timeout
  }

  function Last<T>(s: seq<T>): T
    requires s != []
  {
    s[|s| - 1]
  }

  function Init<T>(s: seq<T>): (r: seq<T>)
    requires s != []
    ensures s == r + [Last(s)]
  {
    s[..|s| - 1]
  }

  /** `[r.msg for r in rows]`. */
  function MsgsOf(rows: seq<Row>): seq<Json> {
    seq(|rows|, i requires 0 <= i < |rows| => rows[i].msg)
  }

  /** The set of msgs the rows of sensor `name` wait for. */
  ghost function SensorMsgs(rows: seq<Row>, name: string): set<Json> {
    set i | 0 <= i < |rows| && rows[i].name == name :: rows[i].msg
  }

  /** The set of msgs of a wanted list. */
  ghost function ListedMsgs(msgList: seq<Json>): set<Json> {
    set m | m in msgList
  }

  lemma FirstListed(msgList: seq<Json>)
    ensures msgList != [] ==> msgList[0] in ListedMsgs(msgList)
  {
  }

  /** `get_sensor_messages`: the rows of sensor `name`, in table order. */
  function SensorRows(rows: seq<Row>, name: string): (r: seq<Row>)
    ensures |r| <= |rows|
    ensures forall row :: row in r <==> row in rows && row.name == name
  {
    if rows == [] then []
    else SensorRows(Init(rows), name) + (if Last(rows).name == name then [Last(rows)] else [])
  }

  /** The rows of every other sensor, in table order: what `delete` leaves behind. */
  function OtherRows(rows: seq<Row>, name: string): (r: seq<Row>)
    ensures |r| <= |rows|
    ensures forall row :: row in r <==> row in rows && row.name != name
  {
    if rows == [] then []
    else OtherRows(Init(rows), name) + (if Last(rows).name != name then [Last(rows)] else [])
  }

  // ---------------------------------------------------------------- queries

  /** `status`: ALL_RECEIVED exactly when every row of the sensor has both received fields set. */
  function Status(rows: seq<Row>, name: string): (r: DBStatus)
    ensures r == AllReceived <==> forall i :: 0 <= i < |rows| && rows[i].name == name ==> Received(rows[i])
  {
    if rows == [] then AllReceived
    else if Status(Init(rows), name) == NotAllReceived then NotAllReceived
    else if Last(rows).name == name && !Received(Last(rows)) then NotAllReceived
    else AllReceived
  }

  /** `get_unreceived_msgs`: the msgs of the sensor's rows with both received fields unset. */
  function Unreceived(rows: seq<Row>, name: string): (r: seq<Json>)
    ensures |r| <= |rows|
    ensures forall m :: m in r <==>
      exists i :: 0 <= i < |rows| && rows[i].name == name && Awaiting(rows[i]) && rows[i].msg == m
  {
    if rows == [] then []
    else
      var r := Unreceived(Init(rows), name);
      if Last(rows).name == name && Awaiting(Last(rows)) then r + [Last(rows).msg] else r
  }

  /** The `successed_msgs` comprehension: msgs of the sensor's rows received before their timeout. */
  function Succeeded(rows: seq<Row>, name: string): (r: seq<Json>)
    ensures |r| <= |rows|
    ensures forall m :: m in r <==>
      exists i :: 0 <= i < |rows| && rows[i].name == name && StillValid(rows[i]) && rows[i].msg == m
  {
    if rows == [] then []
    else
      var r := Succeeded(Init(rows), name);
      if Last(rows).name == name && StillValid(Last(rows)) then r + [Last(rows).msg] else r
  }

  /**
   * The msgs of `msgs` that are not in `received`, in order, each as often as
   * `msgs` lists it: the `new_msgs` loop of `update_msgs` and the
   * `successed_but_not_receive` loop of `have_successed_msgs`.
   */
  function NotIn(msgs: seq<Json>, received: seq<Json>): (r: seq<Json>)
    ensures |r| <= |msgs|
    ensures forall m :: m in r <==> m in msgs && m !in received
    ensures forall m :: m !in received ==> multiset(r)[m] == multiset(msgs)[m]
  {
    if msgs == [] then []
    else
      var r := NotIn(Init(msgs), received);
      if Last(msgs) !in received then r + [Last(msgs)] else r
  }

  /**
   * `have_successed_msgs`: the msgs of the sensor's rows that received a
   * payload before their timeout and are missing from `received`.
   */
  function HaveSucceeded(rows: seq<Row>, name: string, received: seq<Json>): (r: seq<Json>)
    ensures |r| <= |rows|
    ensures forall m :: m in r <==>
      (m !in received &&
       exists i :: 0 <= i < |rows| && rows[i].name == name && StillValid(rows[i]) && rows[i].msg == m)
  {
    NotIn(Succeeded(rows, name), received)
  }

  // ---------------------------------------------------------------- reset_timeout

  /** One step of `reset_timeout`'s loop, applied to every row. */
  function ResetRow(row: Row, name: string, base: Time, deadline: Json -> Time): Row {
    if row.name == name && row.timeout < base
    then row.(lastReceiveTime := None, lastReceive := None, timeout := deadline(row.msg))
    else row
  }

  /**
   * `reset_timeout(base)`: exactly the sensor's rows whose timeout is strictly
   * before `base` go back to awaiting, with a fresh timeout from `deadline`;
   * every other row is left as it was.
   */
  function ResetExpired(rows: seq<Row>, name: string, base: Time, deadline: Json -> Time): (r: seq<Row>)
    ensures |r| == |rows|
    ensures forall i :: 0 <= i < |rows| ==>
      if rows[i].name == name && rows[i].timeout < base
      then r[i] == rows[i].(lastReceiveTime := None, lastReceive := None, timeout := deadline(rows[i].msg))
      else r[i] == rows[i]
  {
    if rows == [] then []
    else ResetExpired(Init(rows), name, base, deadline) + [ResetRow(Last(rows), name, base, deadline)]
  }

  // ---------------------------------------------------------------- update_on_receive

  /** What a JSON payload reads back as from the `last_receive` column: JSON null reads as None. */
  function StoredPayload(payload: Json): Option<Json> {
    if payload == JNull then None else Some(payload)
  }

  /** One step of `update_on_receive`'s loop, applied to every row. */
  function ReceiveRow(row: Row, name: string, wanted: Json, payload: Json, now: Time): Row {
    if row.name == name && row.msg == wanted
    then row.(lastReceiveTime := Some(now), lastReceive := StoredPayload(payload))
    else row
  }

  /**
   * `update_on_receive(wanted, payload)` at time `now`: every row of the
   * sensor whose msg equals `wanted` records the payload and `now`; its
   * timeout and every other row are left as they were.
   */
  function ReceiveOn(rows: seq<Row>, name: string, wanted: Json, payload: Json, now: Time): (r: seq<Row>)
    ensures |r| == |rows|
    ensures forall i :: 0 <= i < |rows| ==>
      if rows[i].name == name && rows[i].msg == wanted
      then r[i] == rows[i].(lastReceiveTime := Some(now), lastReceive := StoredPayload(payload))
      else r[i] == rows[i]
  {
    if rows == [] then []
    else ReceiveOn(Init(rows), name, wanted, payload, now) + [ReceiveRow(Last(rows), name, wanted, payload, now)]
  }

  // ---------------------------------------------------------------- update_msgs and initialize

  /** The delete of `update_msgs`: the sensor's rows whose msg is not wanted any more go away. */
  function KeepWanted(rows: seq<Row>, name: string, msgList: seq<Json>): (r: seq<Row>)
    ensures |r| <= |rows|
    ensures forall row :: row in r <==> row in rows && (row.name != name || row.msg in msgList)
  {
    if rows == [] then []
    else
      var r := KeepWanted(Init(rows), name, msgList);
      if Last(rows).name != name || Last(rows).msg in msgList then r + [Last(rows)] else r
  }

  /**
   * The insert loop of `initialize` and `update_msgs`: one new row per msg,
   * with consecutive ids from `startId`, or the error of the first msg that
   * cannot be stored (nothing is stored then).
   */
  function BuildRows(msgs: seq<Json>, name: string, sourceType: string, startId: nat, deadline: Json -> Time)
    : (r: Result<seq<Row>, Error>)
    ensures r.Ok? <==> forall i :: 0 <= i < |msgs| ==> Check(msgs[i], sourceType).Ok?
    ensures r.Ok? ==> |r.value| == |msgs| && forall i :: 0 <= i < |msgs| ==>
      IsNewRow(r.value[i], startId + i, name, msgs[i], sourceType, deadline(msgs[i]))
  {
    if msgs == [] then Ok([])
    else
      match BuildRows(Init(msgs), name, sourceType, startId, deadline)
      case Err(e) => Err(e)
      case Ok(rows) =>
        match NewRow(startId + |rows|, name, Last(msgs), sourceType, deadline(Last(msgs)))
        case Err(e) => Err(e)
        case Ok(row) => Ok(rows + [row])
  }

  /**
   * `update_msgs(msg_list)`: drop the sensor's rows whose msg is not in
   * `msgList`, then append a fresh row for every listed msg the surviving rows
   * lack. A msg that cannot be stored aborts the whole update.
   */
  function UpdateMsgs(s: Store, name: string, sourceType: string, msgList: seq<Json>, deadline: Json -> Time)
    : (r: Result<Store, Error>)
    ensures r.Ok? ==> s.nextId <= r.value.nextId <= s.nextId + |msgList|
    ensures r.Ok? ==> |r.value.rows| <= |s.rows| + |msgList|
  {
    var kept := KeepWanted(s.rows, name, msgList);
    var newMsgs := NotIn(msgList, MsgsOf(SensorRows(kept, name)));
    match BuildRows(newMsgs, name, sourceType, s.nextId, deadline)
    case Err(e) => Err(e)
    case Ok(added) => Ok(Store(kept + added, s.nextId + |added|))
  }

  /** UpdateMsgs in terms of its three steps, for callers that compute them one at a time. */
  lemma UpdateMsgsSteps(s: Store, name: string, sourceType: string, msgList: seq<Json>, deadline: Json -> Time,
                        kept: seq<Row>, newMsgs: seq<Json>, built: Result<seq<Row>, Error>)
    requires kept == KeepWanted(s.rows, name, msgList)
    requires newMsgs == NotIn(msgList, MsgsOf(SensorRows(kept, name)))
    requires built == BuildRows(newMsgs, name, sourceType, s.nextId, deadline)
    ensures var r := UpdateMsgs(s, name, sourceType, msgList, deadline);
      && (built.Err? ==> r == Err(built.error))
      && (built.Ok? ==> r.Ok? && r.value.rows == kept + built.value && r.value.nextId == s.nextId + |built.value|)
  {
  }


  /**
   * `initialize(msg_list, dt)`: a sensor without rows gets one fresh row per
   * listed msg; a sensor with rows is synchronised by `update_msgs` and then
   * `reset_timeout(base)`.
   */
  function Initialize(s: Store, name: string, sourceType: string, msgList: seq<Json>, base: Time,
                      deadline: Json -> Time): (r: Result<Store, Error>)
    ensures r.Ok? ==> s.nextId <= r.value.nextId <= s.nextId + |msgList|
    ensures r.Ok? ==> |r.value.rows| <= |s.rows| + |msgList|
  {
    if |SensorRows(s.rows, name)| > 0 then
      match UpdateMsgs(s, name, sourceType, msgList, deadline)
      case Err(e) => Err(e)
      case Ok(s1) => Ok(Store(ResetExpired(s1.rows, name, base, deadline), s1.nextId))
    else
      match BuildRows(msgList, name, sourceType, s.nextId, deadline)
      case Err(e) => Err(e)
      case Ok(added) => Ok(Store(s.rows + added, s.nextId + |added|))
  }

  /** Initialize in terms of the steps of its two branches, for callers that take them one at a time. */
  lemma InitializeSteps(s: Store, name: string, sourceType: string, msgList: seq<Json>, base: Time,
                        deadline: Json -> Time)
    ensures var r := Initialize(s, name, sourceType, msgList, base, deadline);
      && (|SensorRows(s.rows, name)| > 0 ==>
            var u := UpdateMsgs(s, name, sourceType, msgList, deadline);
            && (u.Err? ==> r == Err(u.error))
            && (u.Ok? ==> r.Ok? && r.value.rows == ResetExpired(u.value.rows, name, base, deadline)
                                && r.value.nextId == u.value.nextId))
      && (|SensorRows(s.rows, name)| == 0 ==>
            var b := BuildRows(msgList, name, sourceType, s.nextId, deadline);
            && (b.Err? ==> r == Err(b.error))
            && (b.Ok? ==> r.Ok? && r.value.rows == s.rows + b.value && r.value.nextId == s.nextId + |b.value|))
  {
  }

  // ================================================================ lemmas

  // ---------------------------------------------------------------- helpers on filters

  lemma {:induction false} OtherRowsAppend(a: seq<Row>, b: seq<Row>, name: string)
    ensures OtherRows(a + b, name) == OtherRows(a, name) + OtherRows(b, name)
  {
    if b != [] {
      assert Init(a + b) == a + Init(b);
      OtherRowsAppend(a, Init(b), name);
    } else {
      assert a + b == a;
    }
  }

  /** Two tables that agree row by row on everything outside sensor `name` have the same other rows. */
  lemma {:induction false} OtherRowsAgree(a: seq<Row>, b: seq<Row>, name: string)
    requires |a| == |b|
    requires forall i :: 0 <= i < |a| ==> (a[i].name == name <==> b[i].name == name)
    requires forall i :: 0 <= i < |a| && a[i].name != name ==> a[i] == b[i]
    ensures OtherRows(a, name) == OtherRows(b, name)
  {
    if a != [] {
      OtherRowsAgree(Init(a), Init(b), name);
    }
  }

  /** Deleting unwanted rows of sensor `name` leaves the other sensors' rows as they were. */
  lemma {:induction false} KeepWantedOthers(rows: seq<Row>, name: string, msgList: seq<Json>)
    ensures OtherRows(KeepWanted(rows, name, msgList), name) == OtherRows(rows, name)
  {
    if rows != [] {
      KeepWantedOthers(Init(rows), name, msgList);
      var k := KeepWanted(Init(rows), name, msgList);
      if Last(rows).name != name || Last(rows).msg in msgList {
        OtherRowsAppend(k, [Last(rows)], name);
      }
    }
  }

  /** Rows that all belong to sensor `name` contribute nothing to the other rows. */
  lemma {:induction false} OtherRowsOfSensor(rows: seq<Row>, name: string)
    requires forall i :: 0 <= i < |rows| ==> rows[i].name == name
    ensures OtherRows(rows, name) == []
  {
    if rows != [] {
      OtherRowsOfSensor(Init(rows), name);
    }
  }

  /** Rows that all belong to sensor `name` are all the sensor's rows. */
  lemma {:induction false} SensorRowsOfSensor(rows: seq<Row>, name: string)
    requires forall i :: 0 <= i < |rows| ==> rows[i].name == name
    ensures SensorRows(rows, name) == rows
  {
    if rows != [] {
      SensorRowsOfSensor(Init(rows), name);
    }
  }

  /** Filtering rows keeps ids increasing. */
  lemma {:induction false} KeepWantedIncreasing(rows: seq<Row>, name: string, msgList: seq<Json>)
    requires IdsIncreasing(rows)
    ensures IdsIncreasing(KeepWanted(rows, name, msgList))
  {
    if rows != [] {
      KeepWantedIncreasing(Init(rows), name, msgList);
      var k := KeepWanted(Init(rows), name, msgList);
      forall row | row in k ensures row.id < Last(rows).id {
        assert row in Init(rows);
      }
    }
  }

  // ---------------------------------------------------------------- update_msgs

  /** Every listed msg is waited for once the missing ones have been appended. */
  lemma ListedMsgsStored(kept: seq<Row>, added: seq<Row>, name: string, msgList: seq<Json>, newMsgs: seq<Json>)
    requires forall m :: m in newMsgs <==> m in msgList && m !in MsgsOf(SensorRows(kept, name))
    requires |added| == |newMsgs|
    requires forall j :: 0 <= j < |added| ==> added[j].name == name && added[j].msg == newMsgs[j]
    ensures forall m :: m in msgList ==> m in SensorMsgs(kept + added, name)
  {
    forall m | m in msgList ensures m in SensorMsgs(kept + added, name) {
      if m in MsgsOf(SensorRows(kept, name)) {
        KeptMsgStored(kept, added, name, m);
      } else {
        assert m in newMsgs;
        var j :| 0 <= j < |newMsgs| && newMsgs[j] == m;
        AddedMsgStored(kept, added, name, j);
      }
    }
  }

  /** A msg of one of the sensor's kept rows is still a sensor msg once rows are appended. */
  lemma KeptMsgStored(kept: seq<Row>, added: seq<Row>, name: string, m: Json)
    requires m in MsgsOf(SensorRows(kept, name))
    ensures m in SensorMsgs(kept + added, name)
  {
    SensorRowsMsg(kept, name, m);
    var i :| 0 <= i < |kept| && kept[i].name == name && kept[i].msg == m;
    assert (kept + added)[i] == kept[i];
    MsgInSensorMsgs(kept + added, name, i);
  }

  /** The msg of an appended sensor row is a sensor msg of the whole table. */
  lemma AddedMsgStored(kept: seq<Row>, added: seq<Row>, name: string, j: int)
    requires 0 <= j < |added| && added[j].name == name
    ensures added[j].msg in SensorMsgs(kept + added, name)
  {
    assert (kept + added)[|kept| + j] == added[j];
    MsgInSensorMsgs(kept + added, name, |kept| + j);
  }

  lemma MsgInSensorMsgs(rows: seq<Row>, name: string, i: int)
    requires 0 <= i < |rows| && rows[i].name == name
    ensures rows[i].msg in SensorMsgs(rows, name)
  {
  }

  /** Nothing but listed msgs is waited for when the kept and the added rows only hold listed msgs. */
  lemma StoredMsgsListed(kept: seq<Row>, added: seq<Row>, name: string, msgList: seq<Json>)
    requires forall row :: row in kept && row.name == name ==> row.msg in msgList
    requires forall j :: 0 <= j < |added| ==> added[j].msg in msgList
    ensures forall m :: m in SensorMsgs(kept + added, name) ==> m in msgList
  {
    var rows' := kept + added;
    forall m | m in SensorMsgs(rows', name) ensures m in msgList {
      var i :| 0 <= i < |rows'| && rows'[i].name == name && rows'[i].msg == m;
      if i < |kept| {
        assert kept[i] in kept;
      } else {
        assert added[i - |kept|] == rows'[i];
      }
    }
  }

  /** After `update_msgs(msg_list)` succeeds the sensor waits for exactly the listed msgs. */
  lemma UpdateMsgsSyncs(s: Store, name: string, sourceType: string, msgList: seq<Json>, deadline: Json -> Time)
    requires UpdateMsgs(s, name, sourceType, msgList, deadline).Ok?
    ensures SensorMsgs(UpdateMsgs(s, name, sourceType, msgList, deadline).value.rows, name) == ListedMsgs(msgList)
  {
    var kept := KeepWanted(s.rows, name, msgList);
    var newMsgs := NotIn(msgList, MsgsOf(SensorRows(kept, name)));
    var added := BuildRows(newMsgs, name, sourceType, s.nextId, deadline).value;
    assert UpdateMsgs(s, name, sourceType, msgList, deadline).value.rows == kept + added;
    ListedMsgsStored(kept, added, name, msgList, newMsgs);
    forall j | 0 <= j < |added| ensures added[j].msg in msgList {
      assert added[j].msg == newMsgs[j];
    }
    StoredMsgsListed(kept, added, name, msgList);
  }

  /**
   * `update_msgs` keeps every row of the sensor whose msg is still listed,
   * unchanged, and every row of the sensor afterwards is such a row or a
   * fresh awaiting one with a new id and the policy's timeout.
   */
  lemma UpdateMsgsRows(s: Store, name: string, sourceType: string, msgList: seq<Json>, deadline: Json -> Time)
    requires UpdateMsgs(s, name, sourceType, msgList, deadline).Ok?
    ensures var s' := UpdateMsgs(s, name, sourceType, msgList, deadline).value;
      && (forall row :: row in s.rows && row.name == name && row.msg in msgList ==> row in s'.rows)
      && (forall row :: row in s'.rows && row.name == name ==>
            (row in s.rows && row.msg in msgList) ||
            (s.nextId <= row.id && Awaiting(row) && row.timeout == deadline(row.msg)))
  {
    var kept := KeepWanted(s.rows, name, msgList);
    var newMsgs := NotIn(msgList, MsgsOf(SensorRows(kept, name)));
    var added := BuildRows(newMsgs, name, sourceType, s.nextId, deadline).value;
    assert UpdateMsgs(s, name, sourceType, msgList, deadline).value.rows == kept + added;
    forall row: Row | row in kept + added && row.name == name
      ensures (row in s.rows && row.msg in msgList) ||
              (s.nextId <= row.id && Awaiting(row) && row.timeout == deadline(row.msg))
    {
      if row !in kept {
        var j :| 0 <= j < |added| && added[j] == row;
      }
    }
  }

  /** `update_msgs` leaves the rows of every other sensor as they were, in the same order. */
  lemma UpdateMsgsOthers(s: Store, name: string, sourceType: string, msgList: seq<Json>, deadline: Json -> Time)
    requires UpdateMsgs(s, name, sourceType, msgList, deadline).Ok?
    ensures OtherRows(UpdateMsgs(s, name, sourceType, msgList, deadline).value.rows, name) == OtherRows(s.rows, name)
  {
    var kept := KeepWanted(s.rows, name, msgList);
    var newMsgs := NotIn(msgList, MsgsOf(SensorRows(kept, name)));
    var added := BuildRows(newMsgs, name, sourceType, s.nextId, deadline).value;
    assert UpdateMsgs(s, name, sourceType, msgList, deadline).value.rows == kept + added;
    OtherRowsAppend(kept, added, name);
    OtherRowsOfSensor(added, name);
    KeepWantedOthers(s.rows, name, msgList);
  }

  /** For a listed msg, the surviving rows hold it exactly when the sensor held it before the delete. */
  lemma ExistingMsgs(rows: seq<Row>, name: string, msgList: seq<Json>)
    ensures forall m :: m in msgList ==>
      (m in MsgsOf(SensorRows(KeepWanted(rows, name, msgList), name)) <==> m in SensorMsgs(rows, name))
  {
    var kept := KeepWanted(rows, name, msgList);
    forall m | m in msgList
      ensures m in MsgsOf(SensorRows(kept, name)) <==> m in SensorMsgs(rows, name)
    {
      SensorRowsMsg(kept, name, m);
      KeepWantedMsg(rows, name, msgList, m);
    }
  }

  /** The msgs of the sensor's rows, in table order, are the msgs the sensor waits for. */
  lemma SensorRowsMsg(rows: seq<Row>, name: string, m: Json)
    ensures m in MsgsOf(SensorRows(rows, name)) <==> m in SensorMsgs(rows, name)
  {
    if m in MsgsOf(SensorRows(rows, name)) {
      ListedSensorMsg(rows, name, m);
    }
    if m in SensorMsgs(rows, name) {
      SensorMsgListed(rows, name, m);
    }
  }

  lemma ListedSensorMsg(rows: seq<Row>, name: string, m: Json)
    requires m in MsgsOf(SensorRows(rows, name))
    ensures m in SensorMsgs(rows, name)
  {
    var sr := SensorRows(rows, name);
    var msgs := MsgsOf(sr);
    var j :| 0 <= j < |msgs| && msgs[j] == m;
    assert sr[j] in sr;
    var i :| 0 <= i < |rows| && rows[i] == sr[j];
    MsgInSensorMsgs(rows, name, i);
  }

  lemma SensorMsgListed(rows: seq<Row>, name: string, m: Json)
    requires m in SensorMsgs(rows, name)
    ensures m in MsgsOf(SensorRows(rows, name))
  {
    var sr := SensorRows(rows, name);
    var i :| 0 <= i < |rows| && rows[i].name == name && rows[i].msg == m;
    assert rows[i] in rows;
    assert rows[i] in sr;
    var j :| 0 <= j < |sr| && sr[j] == rows[i];
    assert MsgsOf(sr)[j] == m;
  }


  /** The delete of `update_msgs` keeps every listed msg the sensor waits for. */
  lemma KeepWantedMsg(rows: seq<Row>, name: string, msgList: seq<Json>, m: Json)
    requires m in msgList
    ensures m in SensorMsgs(KeepWanted(rows, name, msgList), name) <==> m in SensorMsgs(rows, name)
  {
    var kept := KeepWanted(rows, name, msgList);
    if m in SensorMsgs(kept, name) {
      var i :| 0 <= i < |kept| && kept[i].name == name && kept[i].msg == m;
      assert kept[i] in kept;
      var k :| 0 <= k < |rows| && rows[k] == kept[i];
      MsgInSensorMsgs(rows, name, k);
    }
    if m in SensorMsgs(rows, name) {
      var i :| 0 <= i < |rows| && rows[i].name == name && rows[i].msg == m;
      assert rows[i] in rows;
      assert rows[i] in kept;
      var k :| 0 <= k < |kept| && kept[k] == rows[i];
      MsgInSensorMsgs(kept, name, k);
    }
  }

  /** A failed insert raises the error of the first msg that cannot be stored. */
  lemma {:induction false} BuildRowsError(msgs: seq<Json>, name: string, sourceType: string, startId: nat,
                                          deadline: Json -> Time)
    ensures var r := BuildRows(msgs, name, sourceType, startId, deadline);
      r.Err? ==> exists i :: 0 <= i < |msgs| && Check(msgs[i], sourceType) == Err(r.error) &&
                            forall j :: 0 <= j < i ==> Check(msgs[j], sourceType).Ok?
  {
    if msgs != [] {
      var init := Init(msgs);
      var r := BuildRows(msgs, name, sourceType, startId, deadline);
      var prefix := BuildRows(init, name, sourceType, startId, deadline);
      BuildRowsError(init, name, sourceType, startId, deadline);
      assert forall j :: 0 <= j < |init| ==> msgs[j] == init[j];
      if prefix.Err? {
        assert r == Err(prefix.error);
        var i :| 0 <= i < |init| && Check(init[i], sourceType) == Err(prefix.error) &&
                 forall j :: 0 <= j < i ==> Check(init[j], sourceType).Ok?;
        assert Check(msgs[i], sourceType) == Err(r.error);
      } else if r.Err? {
        var k := |init|;
        var row := NewRow(startId + |prefix.value|, name, Last(msgs), sourceType, deadline(Last(msgs)));
        assert r == Err(row.error);
        assert msgs[k] == Last(msgs);
        assert Check(msgs[k], sourceType) == Err(r.error);
      }
    }
  }

  /** A built batch is awaiting throughout and numbered consecutively from `startId`. */
  lemma BuildRowsFresh(msgs: seq<Json>, name: string, sourceType: string, startId: nat, deadline: Json -> Time)
    ensures var r := BuildRows(msgs, name, sourceType, startId, deadline);
      r.Ok? ==> forall j :: 0 <= j < |r.value| ==> r.value[j].id == startId + j && Awaiting(r.value[j])
  {
    var r := BuildRows(msgs, name, sourceType, startId, deadline);
    if r.Ok? {
      forall j | 0 <= j < |r.value| ensures r.value[j].id == startId + j && Awaiting(r.value[j]) {
        assert IsNewRow(r.value[j], startId + j, name, msgs[j], sourceType, deadline(msgs[j]));
      }
    }
  }

  /** Rows that are, one by one, the new rows of `msgs` are exactly what building those rows yields. */
  lemma BuildRowsExact(msgs: seq<Json>, rows: seq<Row>, name: string, sourceType: string, startId: nat,
                       deadline: Json -> Time)
    requires |rows| == |msgs|
    requires forall j :: 0 <= j < |msgs| ==> Check(msgs[j], sourceType).Ok?
    requires forall j :: 0 <= j < |msgs| ==> IsNewRow(rows[j], startId + j, name, msgs[j], sourceType, deadline(msgs[j]))
    ensures BuildRows(msgs, name, sourceType, startId, deadline).Ok?
    ensures BuildRows(msgs, name, sourceType, startId, deadline).value == rows
  {
    var r := BuildRows(msgs, name, sourceType, startId, deadline);
    assert r.Ok? && |r.value| == |rows|;
    forall j | 0 <= j < |msgs|
      ensures r.value[j] == rows[j]
    {
      IsNewRowUnique(r.value[j], rows[j], startId + j, name, msgs[j], sourceType, deadline(msgs[j]));
    }
  }

  /** The first msg that cannot be stored decides the error of the whole insert. */
  lemma BuildRowsFirstError(msgs: seq<Json>, i: nat, name: string, sourceType: string, startId: nat,
                            deadline: Json -> Time)
    requires i < |msgs|
    requires forall j :: 0 <= j < i ==> Check(msgs[j], sourceType).Ok?
    requires Check(msgs[i], sourceType).Err?
    ensures BuildRows(msgs, name, sourceType, startId, deadline) == Err(Check(msgs[i], sourceType).error)
  {
    var r := BuildRows(msgs, name, sourceType, startId, deadline);
    BuildRowsError(msgs, name, sourceType, startId, deadline);
    var k :| 0 <= k < |msgs| && Check(msgs[k], sourceType) == Err(r.error) &&
             forall j :: 0 <= j < k ==> Check(msgs[j], sourceType).Ok?;
    assert k == i;
  }

  /** Building rows fails exactly when some msg cannot be stored, with the error of such a msg. */
  lemma BuildRowsFails(msgs: seq<Json>, name: string, sourceType: string, startId: nat, deadline: Json -> Time)
    ensures var r := BuildRows(msgs, name, sourceType, startId, deadline);
      && (r.Err? <==> exists m :: m in msgs && Check(m, sourceType).Err?)
      && (r.Err? ==> exists m :: m in msgs && Check(m, sourceType) == Err(r.error))
  {
    var r := BuildRows(msgs, name, sourceType, startId, deadline);
    BuildRowsError(msgs, name, sourceType, startId, deadline);
    if r.Err? {
      var i :| 0 <= i < |msgs| && Check(msgs[i], sourceType) == Err(r.error);
      assert msgs[i] in msgs;
    }
  }

  /**
   * `update_msgs` fails exactly when some listed msg the sensor does not hold
   * yet cannot be stored, and then raises that msg's error. Msgs the sensor
   * already holds are not validated again.
   */
  lemma UpdateMsgsFails(s: Store, name: string, sourceType: string, msgList: seq<Json>, deadline: Json -> Time)
    ensures var r := UpdateMsgs(s, name, sourceType, msgList, deadline);
      && (r.Err? <==> exists m :: m in msgList && m !in SensorMsgs(s.rows, name) && Check(m, sourceType).Err?)
      && (r.Err? ==> exists m :: m in msgList && m !in SensorMsgs(s.rows, name) && Check(m, sourceType) == Err(r.error))
  {
    var kept := KeepWanted(s.rows, name, msgList);
    var newMsgs := NotIn(msgList, MsgsOf(SensorRows(kept, name)));
    ExistingMsgs(s.rows, name, msgList);
    BuildRowsFails(newMsgs, name, sourceType, s.nextId, deadline);
    assert UpdateMsgs(s, name, sourceType, msgList, deadline).Err?
       == BuildRows(newMsgs, name, sourceType, s.nextId, deadline).Err?;
  }

  /** The delete of `update_msgs` removes nothing when every row of the sensor is still listed. */
  lemma {:induction false} KeepWantedAll(rows: seq<Row>, name: string, msgList: seq<Json>)
    requires forall row :: row in rows && row.name == name ==> row.msg in msgList
    ensures KeepWanted(rows, name, msgList) == rows
  {
    if rows != [] {
      KeepWantedAll(Init(rows), name, msgList);
    }
  }

  /** No listed msg is new when every one of them is stored already. */
  lemma {:induction false} NoNewMsgs(msgList: seq<Json>, existing: seq<Json>)
    requires forall m :: m in msgList ==> m in existing
    ensures NotIn(msgList, existing) == []
  {
    if msgList != [] {
      NoNewMsgs(Init(msgList), existing);
    }
  }

  /** `update_msgs` changes nothing when the sensor already waits for exactly the listed msgs. */
  lemma UpdateMsgsNoChange(s: Store, name: string, sourceType: string, msgList: seq<Json>, deadline: Json -> Time)
    requires SensorMsgs(s.rows, name) == ListedMsgs(msgList)
    ensures UpdateMsgs(s, name, sourceType, msgList, deadline) == Ok(s)
  {
    forall row | row in s.rows && row.name == name ensures row.msg in msgList {
      var i :| 0 <= i < |s.rows| && s.rows[i] == row;
      MsgInSensorMsgs(s.rows, name, i);
      assert row.msg in ListedMsgs(msgList);
    }
    KeepWantedAll(s.rows, name, msgList);
    ExistingMsgs(s.rows, name, msgList);
    var existing := MsgsOf(SensorRows(s.rows, name));
    forall m | m in msgList ensures m in existing {
      assert m in ListedMsgs(msgList);
    }
    NoNewMsgs(msgList, existing);
    UpdateMsgsNothingNew(s, name, sourceType, msgList, deadline);
  }

  /** `update_msgs` that deletes nothing and finds nothing new leaves the table as it was. */
  lemma UpdateMsgsNothingNew(s: Store, name: string, sourceType: string, msgList: seq<Json>, deadline: Json -> Time)
    requires KeepWanted(s.rows, name, msgList) == s.rows
    requires NotIn(msgList, MsgsOf(SensorRows(s.rows, name))) == []
    ensures UpdateMsgs(s, name, sourceType, msgList, deadline) == Ok(s)
  {
    assert BuildRows([], name, sourceType, s.nextId, deadline) == Ok([]);
    assert s.rows + [] == s.rows;
  }


  /** Running `update_msgs` twice with the same list is the same as running it once. */
  lemma UpdateMsgsIdempotent(s: Store, name: string, sourceType: string, msgList: seq<Json>, deadline: Json -> Time)
    requires UpdateMsgs(s, name, sourceType, msgList, deadline).Ok?
    ensures var s' := UpdateMsgs(s, name, sourceType, msgList, deadline).value;
      UpdateMsgs(s', name, sourceType, msgList, deadline) == Ok(s')
  {
    UpdateMsgsSyncs(s, name, sourceType, msgList, deadline);
    UpdateMsgsNoChange(UpdateMsgs(s, name, sourceType, msgList, deadline).value, name, sourceType, msgList, deadline);
  }

  /** Appending rows with the next ids in order keeps a table well formed. */
  lemma AppendFreshRows(kept: seq<Row>, added: seq<Row>, nextId: nat)
    requires WellFormed(Store(kept, nextId))
    requires forall j :: 0 <= j < |added| ==> added[j].id == nextId + j
    ensures WellFormed(Store(kept + added, nextId + |added|))
  {
    var rows' := kept + added;
    forall i, j | 0 <= i < j < |rows'| ensures rows'[i].id < rows'[j].id {
      if j >= |kept| {
        assert rows'[j] == added[j - |kept|];
        if i >= |kept| {
          assert rows'[i] == added[i - |kept|];
        }
      }
    }
  }

  /** `update_msgs` keeps ids increasing and below the next id: new rows take fresh ids in order. */
  lemma UpdateMsgsWellFormed(s: Store, name: string, sourceType: string, msgList: seq<Json>, deadline: Json -> Time)
    requires WellFormed(s)
    requires UpdateMsgs(s, name, sourceType, msgList, deadline).Ok?
    ensures WellFormed(UpdateMsgs(s, name, sourceType, msgList, deadline).value)
  {
    var kept := KeepWanted(s.rows, name, msgList);
    var newMsgs := NotIn(msgList, MsgsOf(SensorRows(kept, name)));
    var built := BuildRows(newMsgs, name, sourceType, s.nextId, deadline);
    UpdateMsgsSteps(s, name, sourceType, msgList, deadline, kept, newMsgs, built);
    KeepWantedWellFormed(s, name, msgList);
    AppendFreshRows(kept, built.value, s.nextId);
  }

  /** The delete of `update_msgs` keeps ids increasing and below the next id. */
  lemma KeepWantedWellFormed(s: Store, name: string, msgList: seq<Json>)
    requires WellFormed(s)
    ensures WellFormed(Store(KeepWanted(s.rows, name, msgList), s.nextId))
  {
    var kept := KeepWanted(s.rows, name, msgList);
    KeepWantedIncreasing(s.rows, name, msgList);
    forall i | 0 <= i < |kept| ensures kept[i].id < s.nextId {
      assert kept[i] in s.rows;
    }
  }



  // ---------------------------------------------------------------- reset_timeout

  /** Two tables that agree row by row on names and msgs wait for the same msgs. */
  lemma SensorMsgsAgree(a: seq<Row>, b: seq<Row>, name: string)
    requires |a| == |b|
    requires forall i :: 0 <= i < |a| ==> a[i].name == b[i].name && a[i].msg == b[i].msg
    ensures SensorMsgs(a, name) == SensorMsgs(b, name)
  {
    forall m | m in SensorMsgs(a, name) ensures m in SensorMsgs(b, name) {
      var i :| 0 <= i < |a| && a[i].name == name && a[i].msg == m;
      MsgInSensorMsgs(b, name, i);
    }
    forall m | m in SensorMsgs(b, name) ensures m in SensorMsgs(a, name) {
      var i :| 0 <= i < |b| && b[i].name == name && b[i].msg == m;
      MsgInSensorMsgs(a, name, i);
    }
  }

  /**
   * Two tables that agree row by row on ids, names and msgs, and on every row
   * of another sensor, wait for the same msgs, have the same other rows, and
   * are well formed together.
   */
  lemma SameKeysFrame(a: seq<Row>, b: seq<Row>, name: string, nextId: nat)
    requires |a| == |b|
    requires forall i :: 0 <= i < |a| ==> a[i].id == b[i].id && a[i].name == b[i].name && a[i].msg == b[i].msg
    requires forall i :: 0 <= i < |a| && a[i].name != name ==> a[i] == b[i]
    ensures SensorMsgs(a, name) == SensorMsgs(b, name)
    ensures OtherRows(a, name) == OtherRows(b, name)
    ensures WellFormed(Store(b, nextId)) ==> WellFormed(Store(a, nextId))
  {
    SensorMsgsAgree(a, b, name);
    OtherRowsAgree(a, b, name);
  }


  /**
   * `reset_timeout` keeps every row in place with its id, name and msg, so the
   * sensor waits for the same msgs, the table stays well formed, and the other
   * sensors' rows are as they were.
   */
  lemma ResetExpiredFrame(s: Store, name: string, base: Time, deadline: Json -> Time)
    ensures var rows' := ResetExpired(s.rows, name, base, deadline);
      && SensorMsgs(rows', name) == SensorMsgs(s.rows, name)
      && OtherRows(rows', name) == OtherRows(s.rows, name)
      && (WellFormed(s) ==> WellFormed(Store(rows', s.nextId)))
  {
    var rows' := ResetExpired(s.rows, name, base, deadline);
    forall i | 0 <= i < |rows'|
      ensures rows'[i].id == s.rows[i].id && rows'[i].name == s.rows[i].name && rows'[i].msg == s.rows[i].msg
      ensures s.rows[i].name != name ==> rows'[i] == s.rows[i]
    {
    }
    SameKeysFrame(rows', s.rows, name, s.nextId);
  }


  /**
   * When the policy hands every msg of the sensor a timeout no earlier than
   * `base`, no row of the sensor is left expired after `reset_timeout(base)`.
   */
  lemma ResetExpiredSettles(rows: seq<Row>, name: string, base: Time, deadline: Json -> Time)
    requires forall i :: 0 <= i < |rows| && rows[i].name == name ==> base <= deadline(rows[i].msg)
    ensures var rows' := ResetExpired(rows, name, base, deadline);
      forall i :: 0 <= i < |rows'| && rows'[i].name == name ==> base <= rows'[i].timeout
  {
  }

  /**
   * A row `reset_timeout(base)` leaves as it is: another sensor's, not yet
   * due, or already awaiting with the window the policy gives its msg.
   */
  predicate ResetFixed(row: Row, name: string, base: Time, deadline: Json -> Time) {
    row.name != name || base <= row.timeout || (Awaiting(row) && row.timeout == deadline(row.msg))
  }

  /** `reset_timeout` leaves a row as it is exactly when the row is ResetFixed. */
  lemma ResetRowFixed(row: Row, name: string, base: Time, deadline: Json -> Time)
    ensures ResetRow(row, name, base, deadline) == row <==> ResetFixed(row, name, base, deadline)
  {
    if ResetRow(row, name, base, deadline) == row && row.name == name && row.timeout < base {
      assert row.(lastReceiveTime := None, lastReceive := None, timeout := deadline(row.msg)) == row;
    }
  }

  /** A table all of whose rows are ResetFixed is not touched by `reset_timeout`. */
  lemma ResetExpiredFixed(rows: seq<Row>, name: string, base: Time, deadline: Json -> Time)
    requires forall i :: 0 <= i < |rows| ==> ResetFixed(rows[i], name, base, deadline)
    ensures ResetExpired(rows, name, base, deadline) == rows
  {
    var rows' := ResetExpired(rows, name, base, deadline);
    forall i | 0 <= i < |rows|
      ensures rows'[i] == rows[i]
    {
      ResetRowFixed(rows[i], name, base, deadline);
    }
  }

  /** A row-by-row application of `ResetRow` is `ResetExpired`. */
  lemma ResetExpiredPointwise(rows: seq<Row>, rows': seq<Row>, name: string, base: Time, deadline: Json -> Time)
    requires |rows'| == |rows|
    requires forall k :: 0 <= k < |rows| ==> rows'[k] == ResetRow(rows[k], name, base, deadline)
    ensures rows' == ResetExpired(rows, name, base, deadline)
  {
  }

  /** After `reset_timeout(base)` every row is ResetFixed, whatever the policy. */
  lemma ResetExpiredAllFixed(rows: seq<Row>, name: string, base: Time, deadline: Json -> Time)
    ensures var rows' := ResetExpired(rows, name, base, deadline);
      forall i :: 0 <= i < |rows'| ==> ResetFixed(rows'[i], name, base, deadline)
  {
  }

  /** Whatever the policy, a second `reset_timeout(base)` changes nothing. */
  lemma ResetExpiredTwice(rows: seq<Row>, name: string, base: Time, deadline: Json -> Time)
    ensures var rows' := ResetExpired(rows, name, base, deadline);
      ResetExpired(rows', name, base, deadline) == rows'
  {
    ResetExpiredAllFixed(rows, name, base, deadline);
    ResetExpiredFixed(ResetExpired(rows, name, base, deadline), name, base, deadline);
  }

  /** `reset_timeout` never stores a null payload. */
  lemma ResetExpiredNullFree(rows: seq<Row>, name: string, base: Time, deadline: Json -> Time)
    requires NullFree(rows)
    ensures NullFree(ResetExpired(rows, name, base, deadline))
  {
    var rows' := ResetExpired(rows, name, base, deadline);
    forall i | 0 <= i < |rows'| ensures rows'[i].lastReceive != Some(JNull) {
      assert rows[i] in rows;
    }
  }

  /** `reset_timeout` keeps a table's ids well formed and its payloads free of JSON null. */
  lemma ResetExpiredKeeps(s: Store, name: string, base: Time, deadline: Json -> Time)
    requires WellFormed(s) && NullFree(s.rows)
    ensures var rows' := ResetExpired(s.rows, name, base, deadline);
      WellFormed(Store(rows', s.nextId)) && NullFree(rows')
  {
    ResetExpiredFrame(s, name, base, deadline);
    ResetExpiredNullFree(s.rows, name, base, deadline);
  }

  // ---------------------------------------------------------------- update_on_receive

  /** A row-by-row application of `ReceiveRow` is `ReceiveOn`. */
  lemma ReceiveOnPointwise(rows: seq<Row>, rows': seq<Row>, name: string, wanted: Json, payload: Json, now: Time)
    requires |rows'| == |rows|
    requires forall k :: 0 <= k < |rows| ==> rows'[k] == ReceiveRow(rows[k], name, wanted, payload, now)
    ensures rows' == ReceiveOn(rows, name, wanted, payload, now)
  {
  }

  /** `update_on_receive` never stores a null payload: a null payload reads back as None. */
  lemma ReceiveOnNullFree(rows: seq<Row>, name: string, wanted: Json, payload: Json, now: Time)
    requires NullFree(rows)
    ensures NullFree(ReceiveOn(rows, name, wanted, payload, now))
  {
    var rows' := ReceiveOn(rows, name, wanted, payload, now);
    forall i | 0 <= i < |rows'| ensures rows'[i].lastReceive != Some(JNull) {
      assert rows[i] in rows;
      assert rows'[i] == ReceiveRow(rows[i], name, wanted, payload, now);
      ReceiveRowNullFree(rows[i], name, wanted, payload, now);
    }
  }

  /** One step of `update_on_receive` stores no null payload. */
  lemma ReceiveRowNullFree(row: Row, name: string, wanted: Json, payload: Json, now: Time)
    requires row.lastReceive != Some(JNull)
    ensures ReceiveRow(row, name, wanted, payload, now).lastReceive != Some(JNull)
  {
    if payload == JNull {
      assert StoredPayload(payload) == None;
    }
  }

  /** `update_on_receive` keeps a table's ids well formed and its payloads free of JSON null. */
  lemma ReceiveOnKeeps(s: Store, name: string, wanted: Json, payload: Json, now: Time)
    requires WellFormed(s) && NullFree(s.rows)
    ensures var rows' := ReceiveOn(s.rows, name, wanted, payload, now);
      WellFormed(Store(rows', s.nextId)) && NullFree(rows')
  {
    ReceiveOnFrame(s, name, wanted, payload, now);
    ReceiveOnNullFree(s.rows, name, wanted, payload, now);
  }

  /** `update_on_receive` leaves the other sensors' rows as they were and keeps the table well formed. */
  lemma ReceiveOnFrame(s: Store, name: string, wanted: Json, payload: Json, now: Time)
    ensures var rows' := ReceiveOn(s.rows, name, wanted, payload, now);
      && OtherRows(rows', name) == OtherRows(s.rows, name)
      && SensorMsgs(rows', name) == SensorMsgs(s.rows, name)
      && (WellFormed(s) ==> WellFormed(Store(rows', s.nextId)))
  {
    var rows' := ReceiveOn(s.rows, name, wanted, payload, now);
    forall i | 0 <= i < |rows'|
      ensures rows'[i].id == s.rows[i].id && rows'[i].name == s.rows[i].name && rows'[i].msg == s.rows[i].msg
      ensures s.rows[i].name != name ==> rows'[i] == s.rows[i]
    {
    }
    SameKeysFrame(rows', s.rows, name, s.nextId);
  }


  /** With no row of the sensor waiting for `wanted`, `update_on_receive` is a no-op. */
  lemma ReceiveOnNoMatch(rows: seq<Row>, name: string, wanted: Json, payload: Json, now: Time)
    requires forall i :: 0 <= i < |rows| ==> rows[i].name != name || rows[i].msg != wanted
    ensures ReceiveOn(rows, name, wanted, payload, now) == rows
  {
  }

  /** Receiving the same payload twice at the same time is the same as receiving it once. */
  lemma ReceiveOnIdempotent(rows: seq<Row>, name: string, wanted: Json, payload: Json, now: Time)
    ensures var rows' := ReceiveOn(rows, name, wanted, payload, now);
      ReceiveOn(rows', name, wanted, payload, now) == rows'
  {
  }

  /**
   * After `update_on_receive(wanted, payload)`, `wanted` is no longer listed
   * as unreceived, and with a non-null payload every row waiting for it
   * counts as received.
   */
  lemma ReceiveOnMarksReceived(rows: seq<Row>, name: string, wanted: Json, payload: Json, now: Time)
    ensures var rows' := ReceiveOn(rows, name, wanted, payload, now);
      && wanted !in Unreceived(rows', name)
      && (payload != JNull ==>
            forall i :: 0 <= i < |rows'| && rows'[i].name == name && rows'[i].msg == wanted ==> Received(rows'[i]))
  {
    var rows' := ReceiveOn(rows, name, wanted, payload, now);
    forall i | 0 <= i < |rows'| && rows'[i].name == name && rows'[i].msg == wanted
      ensures rows'[i].lastReceiveTime == Some(now)
      ensures payload != JNull ==> Received(rows'[i])
    {
      assert rows'[i] == ReceiveRow(rows[i], name, wanted, payload, now);
      ReceiveRowMarks(rows[i], name, wanted, payload, now);
    }
    assert !exists i :: 0 <= i < |rows'| && rows'[i].name == name && Awaiting(rows'[i]) && rows'[i].msg == wanted;
  }

  /** One step of `update_on_receive` on a row waiting for `wanted` stamps it, and fills it in unless the payload is null. */
  lemma ReceiveRowMarks(row: Row, name: string, wanted: Json, payload: Json, now: Time)
    requires row.name == name && row.msg == wanted
    ensures ReceiveRow(row, name, wanted, payload, now).lastReceiveTime == Some(now)
    ensures payload != JNull ==> Received(ReceiveRow(row, name, wanted, payload, now))
  {
    if payload != JNull {
      assert StoredPayload(payload) == Some(payload);
    }
  }

  // ---------------------------------------------------------------- status and queries

  /** ALL_RECEIVED implies that nothing is listed as unreceived. */
  lemma AllReceivedNothingUnreceived(rows: seq<Row>, name: string)
    requires Status(rows, name) == AllReceived
    ensures Unreceived(rows, name) == []
  {
  }

  /**
   * When every row of the sensor is either awaiting or received (the two
   * received fields set together), `status` is ALL_RECEIVED exactly when
   * nothing is unreceived.
   */
  lemma PairedStatus(rows: seq<Row>, name: string)
    requires forall i :: 0 <= i < |rows| && rows[i].name == name ==> Awaiting(rows[i]) || Received(rows[i])
    ensures Status(rows, name) == AllReceived <==> Unreceived(rows, name) == []
  {
    if Status(rows, name) == AllReceived {
      AllReceivedNothingUnreceived(rows, name);
    }
    if Status(rows, name) == NotAllReceived {
      var i :| 0 <= i < |rows| && rows[i].name == name && !Received(rows[i]);
      assert rows[i].msg in Unreceived(rows, name);
    }
  }

  /**
   * A row with a receive time but no payload: `status` is NOT_ALL_RECEIVED,
   * yet the row is not listed as unreceived.
   */
  lemma HalfReceivedRow()
    ensures var rows := [Row(1, "test", JObj(map["frequency" := JStr("M")]), Kafka, Monthly, None, Some(13), 30)];
      Status(rows, "test") == NotAllReceived && Unreceived(rows, "test") == []
  {
  }

  /**
   * `update_on_receive` with a JSON null payload on a row of the sensor sets
   * only `last_receive_time`: the sensor is then NOT_ALL_RECEIVED, yet the
   * msg is not listed as unreceived.
   */
  lemma NullPayloadHalfReceives(rows: seq<Row>, name: string, wanted: Json, now: Time, i: int)
    requires 0 <= i < |rows| && rows[i].name == name && rows[i].msg == wanted
    ensures var rows' := ReceiveOn(rows, name, wanted, JNull, now);
      && Status(rows', name) == NotAllReceived
      && wanted !in Unreceived(rows', name)
  {
    var rows' := ReceiveOn(rows, name, wanted, JNull, now);
    assert rows'[i].lastReceive == None;
    ReceiveOnMarksReceived(rows, name, wanted, JNull, now);
  }

  /**
   * A carried-over success ends with its window: once every row of the
   * sensor waiting for `m` has expired before `base`, `reset_timeout(base)`
   * leaves no row that reports `m` from `have_successed_msgs`.
   */
  lemma CarryOverEndsAfterReset(rows: seq<Row>, name: string, base: Time, deadline: Json -> Time,
                                received: seq<Json>, m: Json)
    requires forall i :: 0 <= i < |rows| && rows[i].name == name && rows[i].msg == m ==> rows[i].timeout < base
    ensures m !in HaveSucceeded(ResetExpired(rows, name, base, deadline), name, received)
  {
    var rows' := ResetExpired(rows, name, base, deadline);
    forall i | 0 <= i < |rows'| && rows'[i].name == name && rows'[i].msg == m ensures !StillValid(rows'[i]) {
      assert rows[i].name == name && rows[i].msg == m;
    }
  }

  // ---------------------------------------------------------------- delete

  /** Deleting one sensor's rows leaves the rows of every other sensor as they were. */
  lemma {:induction false} DeleteKeepsOthers(rows: seq<Row>, name: string, other: string)
    requires other != name
    ensures SensorRows(OtherRows(rows, name), other) == SensorRows(rows, other)
  {
    if rows != [] {
      DeleteKeepsOthers(Init(rows), name, other);
      var o := OtherRows(Init(rows), name);
      if Last(rows).name != name {
        var o' := o + [Last(rows)];
        assert OtherRows(rows, name) == o';
        assert Init(o') == o && Last(o') == Last(rows);
        assert SensorRows(o', other) == SensorRows(o, other) + (if Last(rows).name == other then [Last(rows)] else []);
      } else {
        assert OtherRows(rows, name) == o;
      }
    }
  }

  /** After `delete` the sensor has no rows, and deleting again changes nothing. */
  lemma DeleteRemovesSensor(s: Store, name: string)
    ensures SensorRows(OtherRows(s.rows, name), name) == []
    ensures OtherRows(OtherRows(s.rows, name), name) == OtherRows(s.rows, name)
    ensures WellFormed(s) ==> WellFormed(Store(OtherRows(s.rows, name), s.nextId))
  {
    var o := OtherRows(s.rows, name);
    NoSensorRows(o, name);
    OtherRowsKeepsAll(o, name);
    if WellFormed(s) {
      OtherRowsIncreasing(s.rows, name, s.nextId);
    }
  }

  lemma {:induction false} NoSensorRows(rows: seq<Row>, name: string)
    requires forall row :: row in rows ==> row.name != name
    ensures SensorRows(rows, name) == []
  {
    if rows != [] {
      NoSensorRows(Init(rows), name);
    }
  }

  lemma {:induction false} OtherRowsKeepsAll(rows: seq<Row>, name: string)
    requires forall row :: row in rows ==> row.name != name
    ensures OtherRows(rows, name) == rows
  {
    if rows != [] {
      OtherRowsKeepsAll(Init(rows), name);
    }
  }

  lemma {:induction false} OtherRowsIncreasing(rows: seq<Row>, name: string, nextId: nat)
    requires WellFormed(Store(rows, nextId))
    ensures WellFormed(Store(OtherRows(rows, name), nextId))
  {
    if rows != [] {
      OtherRowsIncreasing(Init(rows), name, nextId);
      var o := OtherRows(Init(rows), name);
      forall row | row in o ensures row.id < Last(rows).id {
        assert row in Init(rows);
      }
      forall row | row in OtherRows(rows, name) ensures row.id < nextId {
        assert row in rows;
      }
    }
  }

  // ---------------------------------------------------------------- initialize

  /** A table without rows of the sensor yields no msgs for it. */
  lemma NoSensorMsgs(rows: seq<Row>, name: string)
    requires SensorRows(rows, name) == []
    ensures SensorMsgs(rows, name) == {}
    ensures forall i :: 0 <= i < |rows| ==> rows[i].name != name
  {
  }

  /**
   * The first `initialize` of a sensor: it succeeds exactly when every listed
   * msg can be stored, and then appends one fresh awaiting row per listed msg,
   * in list order and duplicates included, after the rows already there.
   */
  lemma InitializeFirstInsert(s: Store, name: string, sourceType: string, msgList: seq<Json>, base: Time,
                              deadline: Json -> Time)
    requires SensorRows(s.rows, name) == []
    ensures var r := Initialize(s, name, sourceType, msgList, base, deadline);
      && (r.Ok? <==> forall i :: 0 <= i < |msgList| ==> Check(msgList[i], sourceType).Ok?)
      && (r.Ok? ==>
            && |r.value.rows| == |s.rows| + |msgList|
            && r.value.rows[..|s.rows|] == s.rows
            && r.value.nextId == s.nextId + |msgList|
            && forall i :: 0 <= i < |msgList| ==>
                 IsNewRow(r.value.rows[|s.rows| + i], s.nextId + i, name, msgList[i], sourceType, deadline(msgList[i])))
  {
    var b := BuildRows(msgList, name, sourceType, s.nextId, deadline);
    InitializeSteps(s, name, sourceType, msgList, base, deadline);
    if b.Ok? {
      var rows' := s.rows + b.value;
      assert rows'[..|s.rows|] == s.rows;
      forall i | 0 <= i < |msgList|
        ensures IsNewRow(rows'[|s.rows| + i], s.nextId + i, name, msgList[i], sourceType, deadline(msgList[i]))
      {
        assert rows'[|s.rows| + i] == b.value[i];
      }
    }
  }


  /** The first insert of a sensor makes it wait for exactly the listed msgs. */
  lemma InsertMsgs(rows: seq<Row>, added: seq<Row>, name: string, msgList: seq<Json>)
    requires forall i :: 0 <= i < |rows| ==> rows[i].name != name
    requires |added| == |msgList|
    requires forall i :: 0 <= i < |added| ==> added[i].name == name && added[i].msg == msgList[i]
    ensures SensorMsgs(rows + added, name) == ListedMsgs(msgList)
  {
    var rows' := rows + added;
    forall m | m in msgList ensures m in SensorMsgs(rows', name) {
      var i :| 0 <= i < |msgList| && msgList[i] == m;
      assert rows'[|rows| + i] == added[i];
      MsgInSensorMsgs(rows', name, |rows| + i);
    }
    forall m | m in SensorMsgs(rows', name) ensures m in msgList {
      var i :| 0 <= i < |rows'| && rows'[i].name == name && rows'[i].msg == m;
      assert rows'[i] == added[i - |rows|];
    }
  }

  /** The facts of InitializeSyncs for a sensor without rows. */
  lemma InsertSyncs(s: Store, name: string, sourceType: string, msgList: seq<Json>, deadline: Json -> Time)
    requires SensorRows(s.rows, name) == []
    requires BuildRows(msgList, name, sourceType, s.nextId, deadline).Ok?
    ensures var added := BuildRows(msgList, name, sourceType, s.nextId, deadline).value;
      && SensorMsgs(s.rows + added, name) == ListedMsgs(msgList)
      && OtherRows(s.rows + added, name) == OtherRows(s.rows, name)
      && (WellFormed(s) ==> WellFormed(Store(s.rows + added, s.nextId + |added|)))
  {
    var added := BuildRows(msgList, name, sourceType, s.nextId, deadline).value;
    NoSensorMsgs(s.rows, name);
    InsertMsgs(s.rows, added, name, msgList);
    InsertFrame(s, added, name);
  }

  lemma InsertFrame(s: Store, added: seq<Row>, name: string)
    requires forall i :: 0 <= i < |added| ==> added[i].name == name && added[i].id == s.nextId + i
    ensures OtherRows(s.rows + added, name) == OtherRows(s.rows, name)
    ensures WellFormed(s) ==> WellFormed(Store(s.rows + added, s.nextId + |added|))
  {
    OtherRowsAppend(s.rows, added, name);
    OtherRowsOfSensor(added, name);
    if WellFormed(s) {
      AppendFreshRows(s.rows, added, s.nextId);
    }
  }

  /** The facts of InitializeSyncs for a sensor that has rows. */
  lemma ResyncSyncs(s: Store, name: string, sourceType: string, msgList: seq<Json>, base: Time,
                    deadline: Json -> Time)
    requires UpdateMsgs(s, name, sourceType, msgList, deadline).Ok?
    ensures var u := UpdateMsgs(s, name, sourceType, msgList, deadline).value;
      var s' := Store(ResetExpired(u.rows, name, base, deadline), u.nextId);
      && SensorMsgs(s'.rows, name) == ListedMsgs(msgList)
      && OtherRows(s'.rows, name) == OtherRows(s.rows, name)
      && (WellFormed(s) ==> WellFormed(s'))
  {
    var u := UpdateMsgs(s, name, sourceType, msgList, deadline).value;
    UpdateMsgsSyncs(s, name, sourceType, msgList, deadline);
    UpdateMsgsOthers(s, name, sourceType, msgList, deadline);
    if WellFormed(s) {
      UpdateMsgsWellFormed(s, name, sourceType, msgList, deadline);
    }
    ResetExpiredFrame(u, name, base, deadline);
  }

  /**
   * After `initialize(msg_list)` succeeds, whatever the sensor held before, it
   * waits for exactly the listed msgs; the other sensors' rows are as they
   * were; and the table stays well formed.
   */
  lemma InitializeSyncs(s: Store, name: string, sourceType: string, msgList: seq<Json>, base: Time,
                        deadline: Json -> Time)
    requires Initialize(s, name, sourceType, msgList, base, deadline).Ok?
    ensures var s' := Initialize(s, name, sourceType, msgList, base, deadline).value;
      && SensorMsgs(s'.rows, name) == ListedMsgs(msgList)
      && OtherRows(s'.rows, name) == OtherRows(s.rows, name)
      && (WellFormed(s) ==> WellFormed(s'))
  {
    if |SensorRows(s.rows, name)| > 0 {
      ResyncSyncs(s, name, sourceType, msgList, base, deadline);
    } else {
      InsertSyncs(s, name, sourceType, msgList, deadline);
    }
  }

  /**
   * When the policy hands every listed msg a timeout no earlier than `base`,
   * no row of the sensor is expired at `base` after `initialize`.
   */
  lemma InitializeCurrent(s: Store, name: string, sourceType: string, msgList: seq<Json>, base: Time,
                          deadline: Json -> Time)
    requires Initialize(s, name, sourceType, msgList, base, deadline).Ok?
    requires forall m :: m in msgList ==> base <= deadline(m)
    ensures var s' := Initialize(s, name, sourceType, msgList, base, deadline).value;
      forall i :: 0 <= i < |s'.rows| && s'.rows[i].name == name ==> base <= s'.rows[i].timeout
  {
    InitializeSteps(s, name, sourceType, msgList, base, deadline);
    var rows' := Initialize(s, name, sourceType, msgList, base, deadline).value.rows;
    if |SensorRows(s.rows, name)| > 0 {
      var u := UpdateMsgs(s, name, sourceType, msgList, deadline).value.rows;
      UpdateMsgsSyncs(s, name, sourceType, msgList, deadline);
      forall i | 0 <= i < |u| && u[i].name == name ensures base <= deadline(u[i].msg) {
        MsgInSensorMsgs(u, name, i);
      }
      ResetExpiredSettles(u, name, base, deadline);
      assert rows' == ResetExpired(u, name, base, deadline);
    } else {
      NoSensorMsgs(s.rows, name);
      var added := BuildRows(msgList, name, sourceType, s.nextId, deadline).value;
      assert rows' == s.rows + added;
      forall i | 0 <= i < |rows'| && rows'[i].name == name
        ensures base <= rows'[i].timeout
      {
        assert i >= |s.rows| && rows'[i] == added[i - |s.rows|];
        assert msgList[i - |s.rows|] in msgList;
      }
    }
  }

  /** A sensor whose rows are all current at `base` is not touched by `reset_timeout(base)`. */
  lemma ResetExpiredNothingDue(rows: seq<Row>, name: string, base: Time, deadline: Json -> Time)
    requires forall i :: 0 <= i < |rows| && rows[i].name == name ==> base <= rows[i].timeout
    ensures ResetExpired(rows, name, base, deadline) == rows
  {
  }

  /** After `initialize`, `reset_timeout` at the same base leaves every row as it is. */
  lemma InitializeFixed(s: Store, name: string, sourceType: string, msgList: seq<Json>, base: Time,
                        deadline: Json -> Time)
    requires Initialize(s, name, sourceType, msgList, base, deadline).Ok?
    ensures var rows' := Initialize(s, name, sourceType, msgList, base, deadline).value.rows;
      forall i :: 0 <= i < |rows'| ==> ResetFixed(rows'[i], name, base, deadline)
  {
    InitializeSteps(s, name, sourceType, msgList, base, deadline);
    if |SensorRows(s.rows, name)| > 0 {
      ResetExpiredAllFixed(UpdateMsgs(s, name, sourceType, msgList, deadline).value.rows, name, base, deadline);
    } else {
      NoSensorMsgs(s.rows, name);
      InsertFixed(s.rows, BuildRows(msgList, name, sourceType, s.nextId, deadline).value, name, base, deadline);
    }
  }

  /** Fresh rows appended after other sensors' rows are all ResetFixed. */
  lemma InsertFixed(rows: seq<Row>, added: seq<Row>, name: string, base: Time, deadline: Json -> Time)
    requires forall i :: 0 <= i < |rows| ==> rows[i].name != name
    requires forall j :: 0 <= j < |added| ==> Awaiting(added[j]) && added[j].timeout == deadline(added[j].msg)
    ensures forall i :: 0 <= i < |rows + added| ==> ResetFixed((rows + added)[i], name, base, deadline)
  {
    forall i | 0 <= i < |rows + added| ensures ResetFixed((rows + added)[i], name, base, deadline) {
      if i >= |rows| {
        assert (rows + added)[i] == added[i - |rows|];
      }
    }
  }

  /**
   * A second `initialize` with the same list, base and clock reading (one
   * deadline function) changes nothing, whatever the policy.
   */
  lemma InitializeIdempotent(s: Store, name: string, sourceType: string, msgList: seq<Json>, base: Time,
                             deadline: Json -> Time)
    requires Initialize(s, name, sourceType, msgList, base, deadline).Ok?
    ensures var s' := Initialize(s, name, sourceType, msgList, base, deadline).value;
      Initialize(s', name, sourceType, msgList, base, deadline) == Ok(s')
  {
    var s' := Initialize(s, name, sourceType, msgList, base, deadline).value;
    InitializeSyncs(s, name, sourceType, msgList, base, deadline);
    InitializeFixed(s, name, sourceType, msgList, base, deadline);
    InitializeSettled(s', name, sourceType, msgList, base, deadline);
  }

  /**
   * A second `initialize` changes nothing on a table that waits for the
   * listed msgs and whose rows `reset_timeout(base)` would leave as they are.
   */
  lemma InitializeSettled(s: Store, name: string, sourceType: string, msgList: seq<Json>, base: Time,
                          deadline: Json -> Time)
    requires SensorMsgs(s.rows, name) == ListedMsgs(msgList)
    requires forall i :: 0 <= i < |s.rows| ==> ResetFixed(s.rows[i], name, base, deadline)
    ensures Initialize(s, name, sourceType, msgList, base, deadline) == Ok(s)
  {
    if |SensorRows(s.rows, name)| > 0 {
      UpdateMsgsNoChange(s, name, sourceType, msgList, deadline);
      ResetExpiredFixed(s.rows, name, base, deadline);
      ResyncUnchanged(s, name, sourceType, msgList, base, deadline);
    } else {
      NoSensorMsgs(s.rows, name);
      NoBuild(s, name, sourceType, msgList, deadline);
      InsertNothing(s, name, sourceType, msgList, base, deadline);
    }
  }

  lemma ResyncUnchanged(s: Store, name: string, sourceType: string, msgList: seq<Json>, base: Time,
                        deadline: Json -> Time)
    requires |SensorRows(s.rows, name)| > 0
    requires UpdateMsgs(s, name, sourceType, msgList, deadline) == Ok(s)
    requires ResetExpired(s.rows, name, base, deadline) == s.rows
    ensures Initialize(s, name, sourceType, msgList, base, deadline) == Ok(s)
  {
  }

  lemma InsertNothing(s: Store, name: string, sourceType: string, msgList: seq<Json>, base: Time,
                      deadline: Json -> Time)
    requires SensorRows(s.rows, name) == []
    requires BuildRows(msgList, name, sourceType, s.nextId, deadline) == Ok([])
    ensures Initialize(s, name, sourceType, msgList, base, deadline) == Ok(s)
  {
    assert s.rows + [] == s.rows;
  }

  /** A sensor without rows that waits for exactly the listed msgs has an empty list. */
  lemma NoBuild(s: Store, name: string, sourceType: string, msgList: seq<Json>, deadline: Json -> Time)
    requires SensorMsgs(s.rows, name) == {}
    requires SensorMsgs(s.rows, name) == ListedMsgs(msgList)
    ensures BuildRows(msgList, name, sourceType, s.nextId, deadline) == Ok([])
  {
    FirstListed(msgList);
    assert msgList == [];
  }
}

=== FILE: json.dfy ===
/**
 * JSON values as the `msg` and `last_receive` columns hold them.
 *
 * An object is a map from keys to values, so two objects are equal exactly
 * when they have the same keys with equal values, whatever order the keys
 * were written in: the same equality as comparing `json.dumps(v, sort_keys=True)`.
 * Numbers are integers; floating point is not part of this model.
 */
module JsonValue {
  import opened Wrappers

  datatype Json =
    | JNull
    | JBool(b: bool)
    | JNum(n: int)
    | JStr(s: string)
    | JArr(items: seq<Json>)
    | JObj(fields: map<string, Json>)

  /**
   * Python's `v[key]` on a decoded JSON value: defined on an object that has
   * the key; on anything else Python raises (KeyError, TypeError), which is `None` here.
   */
  function Get(v: Json, key: string): Option<Json> {
    match v
    case JObj(fields) => if key in fields then Some(fields[key]) else None
    case _ => None
  }
}

=== FILE: wrappers.dfy ===
/** Optional values, results and outcomes used throughout the model. */
module Wrappers {

  /** A value that may be missing: Python's `None` is `None` here. */
  datatype Option<+T> = None | Some(value: T) {
    function GetOr(default: T): T {
      match this
      case Some(v) => v
      case None => default
    }
  }

  /** The value an operation computes, or the exception it raises. */
  datatype Result<+T, +E> = Ok(value: T) | Err(error: E)

  /** How a state-changing operation ended: committed, or rolled back on an exception. */
  datatype Outcome<+E> = Pass | Fail(error: E)
}
